=== FILE: README.md ===
# Data-structure exercises, modelled in Dafny

This project models five small programs and proves properties of each model:

- **A\* route planner.** A best-first search over whole paths through a road map, ordered by path length plus a scaled straight-line estimate. Its priority queue is a binary heap in an array that doubles when full.
- **Huffman coder.** It counts characters and builds the code tree with a priority queue kept as a sorted linked list. Encoding reads the code table off the tree; decoding walks the tree bit by bit.
- **Web request router.** A trie of path segments that stores a handler per path. It answers with a not-found handler when no handler is stored, and a trailing slash does not matter.
- **Autocomplete trie.** A character trie that collects the suffixes completing a prefix into a word.
- **Block chain.** A stack of blocks in a linked list. Each block records the hash of the block below it.

The modules are:

- `RouteCost`, `RouteHeap` and `RoutePlanner`: the route planner.
- `HuffmanHeap` and `Huffman`: the Huffman coder.
- `TrieArena`: the trie shape shared by the router and the autocomplete trie.
- `RequestRouter` and `Autocomplete`: the two tries.
- `BlockChain`: the block chain.
- `Wrappers`: the `Option` type.

Objects whose fields the programs update in place are classes: the heaps, the tries, the router and the chain. Loops are methods proved against specification functions, and properties that relate several calls are lemmas.

Trie nodes are kept in an arena, a sequence of nodes in which a node is named by its index. Each node has a children map, plus its handler or its end-of-word flag. A ghost path per node records the keys that lead to it.

## Model

Source paths are relative to the repository root.

| member | source | states |
|---|---|---|
| RouteCost.ManhattanDistance | dynamic_programming/A-star_route_planner/A_star_algo.py:35-44 | The Manhattan distance is never negative, and it is zero exactly when the two points coincide. |
| RouteCost.ManhattanSymmetric | dynamic_programming/A-star_route_planner/A_star_algo.py:44 | The Manhattan distance from p to q equals the distance from q to p. |
| RouteCost.ManhattanTriangle | dynamic_programming/A-star_route_planner/A_star_algo.py:44 | The Manhattan distance satisfies the triangle inequality. |
| RouteCost.HCost | dynamic_programming/A-star_route_planner/A_star_algo.py:47-91 | The estimate exists exactly for the methods "euclidean" and "manhattan"; any other method gives None. It is non-negative for a non-negative factor and at most the distance for a factor of at most 1. |
| RouteCost.PathDistance | dynamic_programming/A-star_route_planner/A_star_algo.py:104-108 | The summed length of a path is never negative. |
| RouteCost.PathDistanceAppend | dynamic_programming/A-star_route_planner/A_star_algo.py:104-108 | The length of two joined paths is the length of each plus the step that joins them. |
| RouteCost.TotalCostOfStart | dynamic_programming/A-star_route_planner/A_star_algo.py:104-113 | For a one-id path the total cost is just the estimate to the goal with factor 0.85. |
| RouteCost.EstimateAdmissible | dynamic_programming/A-star_route_planner/A_star_algo.py:70-88 | If the distance obeys the triangle inequality, a Euclidean estimate scaled by at most 1 never exceeds the length of a path between the two points. |
| RouteCost.CalcTotalCost | dynamic_programming/A-star_route_planner/A_star_algo.py:94-113 | The accumulation loop returns the summed distances between consecutive ids plus 0.85 times the distance from the last id to the goal. |
| RouteHeap.Parent | dynamic_programming/A-star_route_planner/A_star_algo.py:226-227 | The parent index `i // 2` is strictly smaller than i for every slot but 0, so sift-up terminates. |
| RouteHeap.RootIsMinimum | dynamic_programming/A-star_route_planner/A_star_algo.py:137-147 | In slots ordered along the `i // 2` parent chain, slot 0 has the smallest cost. |
| RouteHeap.MinHeap.constructor | dynamic_programming/A-star_route_planner/A_star_algo.py:123-126 | A new heap has 100 empty slots and size 0. |
| RouteHeap.MinHeap.GetSize | dynamic_programming/A-star_route_planner/A_star_algo.py:200-201 | Returns the size, which is 0 exactly when every slot is empty. |
| RouteHeap.MinHeap.Resize | dynamic_programming/A-star_route_planner/A_star_algo.py:204-208 | The slot array doubles in length; every old slot keeps its contents and the new slots are empty. |
| RouteHeap.MinHeap.Push | dynamic_programming/A-star_route_planner/A_star_algo.py:129-151 | Size and next grow by 1, and the occupied slots gain exactly the new node. The array is replaced only when it was full, and the `i // 2` order is kept. |
| RouteHeap.MinHeap.Pop | dynamic_programming/A-star_route_planner/A_star_algo.py:153-197 | An empty heap gives None and is unchanged. Otherwise the node from slot 0 is returned, size falls by 1, and the occupied slots lose exactly that node. When the slots were ordered along the `i // 2` chain, it is the cheapest node. |
| RouteHeap.Append | dynamic_programming/A-star_route_planner/A_star_algo.py:134-135 | Writing the node into the first empty slot extends the occupied prefix by that node. |
| RouteHeap.SwapWithParent | dynamic_programming/A-star_route_planner/A_star_algo.py:140-145 | One sift-up swap of a slot with its costlier parent permutes the occupied slots and moves the sift-up invariant to the parent. |
| RouteHeap.SiftUp | dynamic_programming/A-star_route_planner/A_star_algo.py:137-147 | Sift-up permutes the occupied slots and restores the `i // 2` order after one appended node. |
| RouteHeap.SiftDown | dynamic_programming/A-star_route_planner/A_star_algo.py:162-191 | Sift-down along the `2i+1`/`2i+2` children permutes the occupied slots and keeps every one of them occupied. |
| RoutePlanner.StepExtends | dynamic_programming/A-star_route_planner/A_star_algo.py:262-269 | A route extended by a road to an id it does not visit is still a simple route from start. |
| RoutePlanner.ExtendPath | dynamic_programming/A-star_route_planner/A_star_algo.py:266-269 | The copy loop yields the popped path followed by the neighbour. |
| RoutePlanner.PushStep | dynamic_programming/A-star_route_planner/A_star_algo.py:266-271 | The copied path plus the neighbour is a simple route from start. The occupied heap slots gain exactly its node, which carries its total cost. The heap's weight grows by one extension weight. |
| RoutePlanner.PushRoad | dynamic_programming/A-star_route_planner/A_star_algo.py:264-271 | One pass of the loop body. A neighbour already on the path adds nothing to the heap; any other neighbour adds exactly the node of the extended path. |
| RoutePlanner.PushSteps | dynamic_programming/A-star_route_planner/A_star_algo.py:262-271 | The loop over the roads from the popped path's last id. The occupied heap slots gain exactly the nodes of the extensions to neighbours not already on the path, one per such road. The heap's weight grows by at most one extension weight per road. |
| RoutePlanner.StepsCovered | dynamic_programming/A-star_route_planner/A_star_algo.py:262-271 | Every extension the loop sees is a route from start whose node it pushes, and every node it pushes belongs to an extension it sees. So seeing the extensions and pushing their nodes keeps the search state covered. |
| RoutePlanner.Lighter | dynamic_programming/A-star_route_planner/A_star_algo.py:256-271 | Popping a path and pushing its extensions strictly lowers the heap's weight, so the search loop terminates. |
| RoutePlanner.Exhausted | dynamic_programming/A-star_route_planner/A_star_algo.py:256-271 | When the heap runs empty, every route from start has been expanded and none reaches the goal. |
| RoutePlanner.RouteBackToStart | dynamic_programming/A-star_route_planner/A_star_algo.py:248-252 | A simple route ending at its start is the one-id path. |
| RoutePlanner.ShortestPath | dynamic_programming/A-star_route_planner/A_star_algo.py:230-279 | The planner as written. An unknown start or goal gives None (a key error). Otherwise the result is a simple route from start; it ends at the goal exactly when the goal is reachable, and it is `[start]` when start equals goal. |
| RoutePlanner.Search | dynamic_programming/A-star_route_planner/A_star_algo.py:248-279 | For known ids, the search loop returns a simple route from start. It ends at the goal exactly when the goal is reachable, and it is `[start]` when start equals goal. |
| RoutePlanner.ExpandCheapest | dynamic_programming/A-star_route_planner/A_star_algo.py:258-274 | One round pops the node in slot 0, whose path is a route from start, and pushes its extensions. The occupied slots plus the popped node equal the old slots plus the extensions' nodes. Unless the route ends at the goal, the search invariants hold again and the heap is strictly lighter. |
| RoutePlanner.Conclude | dynamic_programming/A-star_route_planner/A_star_algo.py:273-277 | The last popped route ends at the goal exactly when the goal is reachable: a search that stopped elsewhere expanded every route from start. |
| RoutePlanner.UnreachableGoal | dynamic_programming/A-star_route_planner/A_star_algo.py:273-279 | With two unconnected intersections, the search returns `[1]`, the start alone, and not `[]`. |
| RoutePlanner.FindShortestPath | dynamic_programming/A-star_route_planner/A_star_algo.py:273-279 | The corrected search returns [] exactly when start or goal is unknown or the goal is unreachable. Otherwise it returns a simple route from start to goal. |
| HuffmanHeap.InsertSplit | Tree/huffman_coding/solution.py:20-38 | A push places the tree behind the nodes that come before it and ahead of the first node that does not. |
| HuffmanHeap.InsertPermutes | Tree/huffman_coding/solution.py:20-39 | A push adds exactly the pushed tree: the new list is one longer and a permutation of the old list plus the tree. |
| HuffmanHeap.InsertKeepsFreqSorted | Tree/huffman_coding/solution.py:24-33 | A push keeps the list sorted by non-decreasing frequency. |
| HuffmanHeap.InsertKeepsOrder | Tree/huffman_coding/solution.py:24-33 | Among equal-frequency leaves, a push keeps the smaller character first. |
| HuffmanHeap.HeadIsMinimum | Tree/huffman_coding/solution.py:42-48 | The head of a sorted list has the minimum frequency. |
| HuffmanHeap.MinHeap.constructor | Tree/huffman_coding/solution.py:15-18 | A new queue is empty. |
| HuffmanHeap.MinHeap.Push | Tree/huffman_coding/solution.py:20-39 | The linked list becomes the specified insertion of the tree into the old list, and size grows by 1. |
| HuffmanHeap.MinHeap.LinkFront | Tree/huffman_coding/solution.py:24-28 | A tree that comes before the head is linked in front of it. |
| HuffmanHeap.MinHeap.LinkAfter | Tree/huffman_coding/solution.py:30-38 | After the walk, the new node is spliced in behind the node where the walk stopped. |
| HuffmanHeap.MinHeap.Pop | Tree/huffman_coding/solution.py:42-48 | An empty queue gives None. Otherwise the head is returned and removed and size falls by 1; the head has the minimum frequency. |
| HuffmanHeap.MinHeap.GetSize | Tree/huffman_coding/solution.py:50-51 | The size is the length of the list. |
| Huffman.Distinct | Tree/huffman_coding/solution.py:53-60 | The keys of the table hold every character of the message and no other, each once. |
| Huffman.CountsAddUp | Tree/huffman_coding/solution.py:53-60 | The counts of the distinct characters sum to the length of the message. |
| Huffman.TallyStep | Tree/huffman_coding/solution.py:55-59 | Counting one more character raises a known key's count by 1 or adds a new key with count 1. |
| Huffman.GetFrequencyTable | Tree/huffman_coding/solution.py:53-60 | The table maps exactly the characters of the message, each to its count. Its keys, in order of first occurrence, are the distinct characters, and the counts sum to the length. |
| Huffman.KeyLeavesAreCounts | Tree/huffman_coding/solution.py:64-68 | The leaves pushed are one (character, count) pair per distinct character of the data. |
| Huffman.PushLeaves | Tree/huffman_coding/solution.py:66-68 | After the first loop the queue is exactly the key leaves pushed one after another in key order (`LeafQueue`). It holds one leaf per key with its count, sorted and tie-broken by character. |
| Huffman.MergeLightest | Tree/huffman_coding/solution.py:71-76 | One round pops the two front trees and pushes a node over them, the first popped on the left, weighing their sum: the new queue is `MergeOnce` of the old one. It shrinks by one and keeps its leaves and its total weight. |
| Huffman.MergeAll | Tree/huffman_coding/solution.py:70-76 | The merge loop leaves `Merged` of the queue it started from: rounds of `MergeOnce` until at most one tree is left, with the same leaves and the same total weight. |
| Huffman.MergeOnceLightest | Tree/huffman_coding/solution.py:71-76 | In a queue in push order, the two trees a round merges are the two lightest, the lighter on the left, and the round replaces exactly those two by the node over them. |
| Huffman.LeafQueueHolds | Tree/huffman_coding/solution.py:66-68 | The queue of pushed key leaves holds exactly one leaf per key, weighs the sum of the counts, and is in push order. |
| Huffman.LastTree | Tree/huffman_coding/solution.py:70-78 | The one tree left is consistent, weighs the total, and holds every leaf. |
| Huffman.GetHuffmanTree | Tree/huffman_coding/solution.py:63-78 | There is no tree exactly for empty data. Otherwise the tree is `HuffmanTree(data)`: the leaves of the distinct characters pushed in order of first occurrence, then merged two front trees at a time until one is left. Every internal node weighs the sum of its children, the root weighs `len(data)`, and the leaves are the distinct characters with their counts. |
| Huffman.TwoSymbolsMakeInternal | Tree/huffman_coding/solution.py:63-78 | Data with two distinct characters gives a tree whose root is internal. |
| Huffman.OneSymbolMakesLeaf | Tree/huffman_coding/solution.py:63-78 | Data with one distinct character gives a single leaf. |
| Huffman.CodesAreLeafPaths | Tree/huffman_coding/solution.py:81-94 | Each code is the 0/1 path from the root to a leaf holding its character, and every leaf's character has a code. |
| Huffman.PrefixFree | Tree/huffman_coding/solution.py:81-94 | No character's code is a prefix of another character's code. |
| Huffman.EmptyCodes | Tree/huffman_coding/solution.py:86-88 | With a lone leaf as root, every code is "" and every message encodes to "". |
| Huffman.HuffmanEncoding | Tree/huffman_coding/solution.py:97-105 | Empty data gives ("", None). Otherwise the tree is `HuffmanTree(data)`, consistent, with its root weighing `len(data)` and its leaves the character counts, and the encoding is the codes of the characters, joined. The encoding decodes back to the data when the root is internal, and it is "" when the root is a leaf. |
| Huffman.HuffmanDecoding | Tree/huffman_coding/solution.py:107-123 | The decoding loop computes the specified decoding, and with an internal root it inverts every encoding over the tree's characters. |
| Huffman.RunCodes | Tree/huffman_coding/solution.py:112-121 | After the codes of a non-empty message, the loop stands on the leaf of its last character, having emitted the others. |
| Huffman.RoundTrip | Tree/huffman_coding/solution.py:97-123 | With an internal root, decoding the joined codes of a message gives the message back. |
| Huffman.EncodeThenDecode | Tree/huffman_coding/solution.py:148-182 | Encoding then decoding as written: "" comes back as "", and data with two distinct characters comes back. Data of one repeated character comes back as "". |
| Huffman.FixedRoundTrip | Tree/huffman_coding/solution.py:81-123 | With the lone leaf given code "0" and decoded bit by bit, every message over the table comes back. |
| Huffman.FixedEncodeThenDecode | Tree/huffman_coding/solution.py:97-123 | With the corrected table and decoder, encoding then decoding returns every input. |
| TrieArena.Descend | Tires/autocomplete/solution.py:59-68 | Walking the keys from the root gives the node they lead to, or None at the first key without a child. |
| TrieArena.AddChildReach | Tires/autocomplete/solution.py:12-14 | A new child is reached by exactly its parent's keys plus its own key; every other key sequence reaches what it reached before. |
| TrieArena.AddChildShaped | Tires/request_routing_in_a_web_server/solution.py:12-15 | Adding a child keeps the arena a tree in which each node's path leads to it. |
| RequestRouter.Split | Tires/request_routing_in_a_web_server/solution.py:78 | `split("/")` gives at least one piece, and no piece contains a slash. |
| RequestRouter.SplitCount | Tires/request_routing_in_a_web_server/solution.py:78 | There is one more piece than there are slashes. |
| RequestRouter.NonEmpty | Tires/request_routing_in_a_web_server/solution.py:79 | The filter keeps exactly the non-empty pieces. |
| RequestRouter.SplitPath | Tires/request_routing_in_a_web_server/solution.py:74-80 | Every segment is non-empty and free of slashes. |
| RequestRouter.SplitPathTrailingSlash | Tires/request_routing_in_a_web_server/solution.py:74-80 | A trailing slash does not change the segments. |
| RequestRouter.SplitPathJoin | Tires/request_routing_in_a_web_server/solution.py:74-80 | Splitting "/s1/s2/…" gives back the non-empty, slash-free segments it was built from. |
| RequestRouter.SetHandlerStored | Tires/request_routing_in_a_web_server/solution.py:32-33 | Setting a node's handler changes the answer for that node's path only. |
| RequestRouter.RouteTrie.constructor | Tires/request_routing_in_a_web_server/solution.py:21-24 | A new trie answers the root handler for no segments and None for every other path. |
| RequestRouter.RouteTrie.InsertChild | Tires/request_routing_in_a_web_server/solution.py:9-16 | Returns the existing child for the segment, or a new one without handler. No answer of the trie changes. |
| RequestRouter.RouteTrie.Insert | Tires/request_routing_in_a_web_server/solution.py:26-33 | After insert, the segments answer the handler and every other path keeps its answer. With no segments, nothing changes. |
| RequestRouter.RouteTrie.SetHandler | Tires/request_routing_in_a_web_server/solution.py:32-33 | The deepest node's handler is set, and only that path's answer changes. |
| RequestRouter.RouteTrie.Find | Tires/request_routing_in_a_web_server/solution.py:35-44 | Returns the handler of the node the segments lead to, or None when a segment has no child. |
| RequestRouter.RouteTrailingSlash | Tires/request_routing_in_a_web_server/solution.py:62-80 | A path gets the same answer with and without a trailing slash. |
| RequestRouter.Router.constructor | Tires/request_routing_in_a_web_server/solution.py:49-53 | A new router holds the root handler for "/" and nothing else. |
| RequestRouter.Router.AddHandler | Tires/request_routing_in_a_web_server/solution.py:55-60 | When the path has segments, every path with the same segments gets the handler, or the not-found handler when the handler is falsy. Every other path keeps its answer; a path without segments changes nothing. |
| RequestRouter.Router.Lookup | Tires/request_routing_in_a_web_server/solution.py:62-72 | Returns the stored handler when truthy, else the not-found handler. A path without segments gets the root handler if it is truthy, and a path leading nowhere gets the not-found handler. |
| RequestRouter.ExampleRouter | Tires/request_routing_in_a_web_server/solution.py:86-87 | The example router answers the about handler for "home/about", the root handler for no segments, and the not-found handler otherwise. |
| RequestRouter.Example | Tires/request_routing_in_a_web_server/solution.py:89-94 | The five lookups give the root, not-found, about, about and not-found handlers. |
| Autocomplete.AddChildWords | Tires/autocomplete/solution.py:12-14 | A new child that is not an end adds no word. |
| Autocomplete.MarkWords | Tires/autocomplete/solution.py:16-17 | Marking a node as an end adds exactly its path to the words. |
| Autocomplete.StepDown | Tires/autocomplete/solution.py:30-32 | The completions below a child are those below the parent that continue with the child's character. |
| Autocomplete.ExitsThroughChild | Tires/autocomplete/solution.py:27-32 | A completion longer than the visited suffix continues through a child. |
| Autocomplete.Trie.constructor | Tires/autocomplete/solution.py:46-48 | A new trie holds the root alone and no words. |
| Autocomplete.Trie.InsertChild | Tires/autocomplete/solution.py:7-19 | Returns the existing child or a new one, marks it as an end when asked, and adds its path to the words exactly then. Every prefix that led to a node still leads to it. |
| Autocomplete.Trie.AddNode | Tires/autocomplete/solution.py:12-14 | Adds a new child without children that is not an end; the words are unchanged and every prefix that led to a node still leads to it. |
| Autocomplete.Trie.MarkEnd | Tires/autocomplete/solution.py:16-17 | Marks the node as an end, adding its path to the words. |
| Autocomplete.Trie.Insert | Tires/autocomplete/solution.py:50-57 | The words gain the word, unless it is empty, and lose none. The empty word leaves the children and end marks unchanged, and every prefix that led to a node still leads to the same node. |
| Autocomplete.Trie.Find | Tires/autocomplete/solution.py:59-68 | Returns the node the prefix leads to, whose path is the prefix, or None when a character has no child. |
| Autocomplete.Trie.Collect | Tires/autocomplete/solution.py:21-32 | The list holds exactly the strings `visited + s` where `s` leads from the node to an end, each once. The visited suffix comes first when the node is an end. |
| Autocomplete.Trie.Suffixes | Tires/autocomplete/solution.py:35-41 | The suffixes are exactly the strings s such that the node's path followed by s is a word, without duplicates. |
| Autocomplete.InsertAll | Tires/autocomplete/solution.py:78-79 | Inserting a list of words adds every non-empty one. |
| Autocomplete.BuildExample | Tires/autocomplete/solution.py:72-79 | The example trie's words are the eleven words of the list. |
| Autocomplete.CompletionsOfF | Tires/autocomplete/solution.py:82-85 | The example words starting with "f" complete it with "un", "unction" and "actory". |
| Autocomplete.CompletionsOfFu | Tires/autocomplete/solution.py:89-92 | The example words starting with "fu" complete it with "n" and "nction". |
| Autocomplete.CompletionsOfAn | Tires/autocomplete/solution.py:96-99 | The example words starting with "an" complete it with "t", "thology", "tagonist" and "tonym". |
| Autocomplete.Example | Tires/autocomplete/solution.py:81-100 | The example's suffixes for "f", "fu" and "an" are the expected ones, in some order. |
| BlockChain.PreviousOf | linked_list/blockchain/solution.py:34-37 | A block pushed on an empty chain records 0; otherwise it records a digest. |
| BlockChain.PushChained | linked_list/blockchain/solution.py:33-43 | Pushing keeps the chain linked: each block records the hash of the block below it, and the bottom block records 0. |
| BlockChain.FromPushes | linked_list/blockchain/solution.py:33-40 | Any sequence of pushes onto an empty chain gives a linked chain with one block per push. |
| BlockChain.LinkedCons | linked_list/blockchain/solution.py:37-39 | A new node linked to the old top makes a longer list. |
| BlockChain.Chain.constructor | linked_list/blockchain/solution.py:29-31 | A new chain is empty with size 0. |
| BlockChain.Chain.PreviousHash | linked_list/blockchain/solution.py:42-43 | Returns the hash of the top block, which the next pushed block records. |
| BlockChain.Chain.Push | linked_list/blockchain/solution.py:33-40 | The new block records the old top's hash, or 0 on an empty chain, and becomes the top, linked to the old top. Size grows by 1, the chain stays linked, and no existing node changes. |

## Left out

- The Euclidean distance (A_star_algo.py:23-32) needs a floating-point square root. It is a parameter `euclid`: any non-negative function of two points.
- Costs are exact reals rather than floating point.
- The map object `M` is a pair of maps, from id to point and from id to neighbour list.
- The string default `mu="0.9"` of `calc_h_cost` is never used by the planner and is not modelled.
- The `print` calls and `sys.getsizeof` are not modelled.
- The file-listing recursion exercise is not part of this model; it is nothing but file-system calls.
- RoutePlanner.ShortestPath: does not claim the returned path is the cheapest. Push orders along the `i // 2` parent chain but pop sifts down along `2i+1`/`2i+2`, so the heap is not a priority queue after a pop; the costs are also floating point.
- RouteHeap.MinHeap.Pop: promises the permutation of the occupied slots but no heap order, for the reason above.
- Python exceptions that the model turns into None results: a key error for an unknown start or goal in the planner, and walking off the tree or reading a missing character in Huffman decoding.
- RoutePlanner.ShortestPath: requires a well-formed map (`WellFormed`: every road leads to an intersection with a point, and every intersection has a road list), so the key errors of `calc_total_cost` on a road to an unknown id and of `M.roads[frontier]` on an id without roads are excluded rather than modelled; the map format the planner reads always has both.
- BlockChain.Chain.PreviousHash: requires a non-empty chain, so the attribute error of `get_previous_hash` on an empty chain is excluded rather than modelled; its only caller, `push`, calls it only when the chain has a top block.
- Trie nodes are indices into an arena rather than objects, so node identity and aliasing are not modelled.
- `find` in the autocomplete trie returns a node index, and `suffixes` is called with that index.
- Autocomplete.Trie.Suffixes: does not fix the order of the suffixes, which follows dict insertion order. It promises a duplicate-free list with exactly the right members, and the node's own word first when the node is an end.
- Autocomplete.Example: states the expected suffix lists as sets, for the same reason.
- The recursive helper appends to a shared list; here it returns its list and the caller concatenates.
- The unused `suffix` parameter of `suffixes` is not modelled.
- Router handlers are `Option<string>`: `None` or a string, with `None` and `""` falsy. Handlers of other Python types are not modelled.
- `calc_hash` (random letters through SHA-256) and `get_timestamp` (the clock) are not modelled. The hash and timestamp of a new block are inputs to `Push`, so nothing is proved about hash uniqueness.
- The string formatting of `BlockChain.__repr__` is not modelled.
- The block-chain and Huffman test drivers only print. Their content is covered by `FromPushes` and `EncodeThenDecode`.

## Findings

| source | as written | input that shows it | evidently intended | confidence | as-written member | corrected member |
|---|---|---|---|---|---|---|
| dynamic_programming/A-star_route_planner/A_star_algo.py:273-279 | When the goal is unreachable the loop exhausts the heap, and `popped_node` is still the last popped node, so the final `return []` is never reached. The search returns a path that does not end at the goal. | Two intersections 1 and 2 with no roads, start 1, goal 2: the result is `[1]`. | Return `[]` when no route reaches the goal. | not executed | RoutePlanner.UnreachableGoal | RoutePlanner.FindShortestPath |
| Tree/huffman_coding/solution.py:86-88, 107-110 | When the data has one distinct character the tree is a lone leaf, whose code is "". Encoding gives "", and decoding "" returns "", so the message is lost. | "aa" encodes to "" and decodes to "". | Give the lone leaf a one-bit code and decode each bit to its character, so every message round-trips. | not executed | Huffman.EncodeThenDecode | Huffman.FixedEncodeThenDecode |

=== FILE: autocomplete.dfy ===
/**
 * Autocomplete with a character trie.  Inserting a word walks or adds one node per
 * character and marks the last as the end of a word; `Find` walks a prefix; the
 * suffixes below a node are the strings that lead from it to an end-of-word node.
 *
 * The trie's nodes live in an arena (module TrieArena): node `n` has the children
 * map `children[n]` from character to node index and the flag `isEnd[n]`.
 */
module Autocomplete {
  import opened Wrappers
  import opened TrieArena

  /** `s` is a word of the trie: it leads from the root to a node marked as an end. */
  predicate IsWord(children: seq<map<char, nat>>, isEnd: seq<bool>, s: string) {
    match Reach(children, s)
    case None => false
    case Some(m) => m < |isEnd| && isEnd[m]
  }

  /** `x` is `visited` followed by a string that leads from node `n` to an end. */
  ghost predicate Completes(children: seq<map<char, nat>>, isEnd: seq<bool>, paths: seq<string>,
                            n: nat, visited: string, x: string)
    requires n < |paths|
  {
    |visited| <= |x| && x[..|visited|] == visited && IsWord(children, isEnd, paths[n] + x[|visited|..])
  }

  predicate NoDuplicates(s: seq<string>) {
    forall i, j :: 0 <= i < j < |s| ==> s[i] != s[j]
  }

  /** Every prefix of a word leads to a node. */
  lemma PrefixReached(children: seq<map<char, nat>>, isEnd: seq<bool>, s: string, i: nat)
    requires IsWord(children, isEnd, s) && i <= |s|
    ensures Reach(children, s[..i]).Some?
  {
    assert s[..i] + s[i..] == s;
    if Reach(children, s[..i]).None? {
      ReachNone(children, s[..i], s[i..]);
      assert false;
    }
  }

  /** A new child, not marked as an end, changes no word. */
  lemma AddChildWords(children: seq<map<char, nat>>, isEnd: seq<bool>, paths: seq<string>, n: nat, c: char)
    requires Shaped(children, paths) && |isEnd| == |children| && n < |children| && c !in children[n]
    ensures forall s :: IsWord(AddChild(children, n, c), isEnd + [false], s) <==> IsWord(children, isEnd, s)
  {
    forall s
      ensures IsWord(AddChild(children, n, c), isEnd + [false], s) <==> IsWord(children, isEnd, s)
    {
      AddChildReach(children, n, c, s);
      if s != [] && s[|s| - 1] == c && Reach(children, s[..|s| - 1]) == Some(n) {
        assert s == s[..|s| - 1] + [c];
        assert Reach(children, s) == None;
      }
    }
  }

  /** Marking node `m` as an end adds its path to the words, and nothing else. */
  lemma MarkWords(children: seq<map<char, nat>>, isEnd: seq<bool>, paths: seq<string>, m: nat)
    requires Shaped(children, paths) && |isEnd| == |children| && m < |children|
    ensures forall s :: IsWord(children, isEnd[m := true], s) <==> IsWord(children, isEnd, s) || s == paths[m]
  {
    forall s
      ensures IsWord(children, isEnd[m := true], s) <==> IsWord(children, isEnd, s) || s == paths[m]
    {
      ReachPath(children, paths, s);
    }
  }

  /** The completions below child `c` of `n` are those below `n` that continue with `c`. */
  lemma StepDown(children: seq<map<char, nat>>, isEnd: seq<bool>, paths: seq<string>,
                 n: nat, c: char, visited: string, x: string)
    requires Shaped(children, paths) && n < |children| && c in children[n]
    ensures Completes(children, isEnd, paths, children[n][c], visited + [c], x)
        <==> Completes(children, isEnd, paths, n, visited, x) && |x| > |visited| && x[|visited|] == c
  {
    var k := children[n][c];
    if |x| > |visited| && x[..|visited| + 1] == visited + [c] {
      assert x[..|visited|] == visited;
      assert x[|visited|..] == [c] + x[|visited| + 1..];
      assert paths[k] + x[|visited| + 1..] == paths[n] + x[|visited|..];
    }
    if |x| > |visited| && x[..|visited|] == visited && x[|visited|] == c {
      assert x[..|visited| + 1] == visited + [c];
    }
  }

  /** A completion longer than `visited` goes on through a child of `n`. */
  lemma ExitsThroughChild(children: seq<map<char, nat>>, isEnd: seq<bool>, paths: seq<string>,
                          n: nat, visited: string, x: string)
    requires Shaped(children, paths) && n < |children|
    requires Completes(children, isEnd, paths, n, visited, x) && |x| > |visited|
    ensures x[|visited|] in children[n]
  {
    var c := x[|visited|];
    var p := paths[n] + [c];
    assert paths[n] + x[|visited|..] == p + x[|visited| + 1..];
    if c !in children[n] {
      assert p[..|p| - 1] == paths[n];
      ReachNone(children, p, x[|visited| + 1..]);
      assert false;
    }
  }

  /** `visited` itself is a completion below `n` exactly when `n` is an end. */
  lemma EndHere(children: seq<map<char, nat>>, isEnd: seq<bool>, paths: seq<string>, n: nat, visited: string)
    requires Shaped(children, paths) && |isEnd| == |children| && n < |children|
    ensures Completes(children, isEnd, paths, n, visited, visited) <==> isEnd[n]
  {
    assert visited[..|visited|] == visited && paths[n] + visited[|visited|..] == paths[n];
  }

  class Trie {
    var children: seq<map<char, nat>>
    var isEnd: seq<bool>
    ghost var paths: seq<string>
    /** The words of the trie. */
    ghost var words: set<string>

    ghost predicate Valid()
      reads this
    {
      && |isEnd| == |children|
      && Shaped(children, paths)
      && forall s :: IsWord(children, isEnd, s) <==> s in words
    }

    /** A trie holding the root alone, with no words. */
    constructor()
      ensures Valid() && words == {}
    {
      children := [map[]];
      isEnd := [false];
      paths := [[]];
      words := {};
    }

    /**
     * The child of `node` for `c`: the existing one, or else a new node without
     * children.  When `end` holds the child is marked as the end of a word; a mark
     * is never removed.  The words gain the child's path when `end` holds.
     */
    method InsertChild(node: nat, c: char, end: bool, ghost q: string) returns (child: nat)
      requires Valid() && node < |children| && Reach(children, q) == Some(node)
      modifies this
      ensures Valid() && child < |children|
      ensures Reach(children, q + [c]) == Some(child)
      ensures c in old(children[node]) ==>
                && child == old(children[node][c])
                && children == old(children)
                && isEnd == if end then old(isEnd)[child := true] else old(isEnd)
      ensures c !in old(children[node]) ==>
                && child == old(|children|)
                && children == AddChild(old(children), node, c)
                && isEnd == old(isEnd) + [end]
      ensures words == if end then old(words) + {q + [c]} else old(words)
      ensures KeepsReach(old(children), children)
    {
      if c in children[node] {
        child := children[node][c];
        assert (q + [c])[..|q|] == q;
      } else {
        child := AddNode(node, c, q);
      }
      if end {
        MarkEnd(child, q + [c]);
        assert c !in old(children[node]) ==> isEnd == (old(isEnd) + [false])[child := true] == old(isEnd) + [true];
      }
    }

    /** Adds the child `c` of `node`, a new node with no children that is not an end. */
    method AddNode(node: nat, c: char, ghost q: string) returns (child: nat)
      requires Valid() && node < |children| && c !in children[node] && Reach(children, q) == Some(node)
      modifies this
      ensures Valid() && child == old(|children|) && child < |children|
      ensures children == AddChild(old(children), node, c) && isEnd == old(isEnd) + [false]
      ensures words == old(words)
      ensures Reach(children, q + [c]) == Some(child)
      ensures KeepsReach(old(children), children)
    {
      ReachPath(children, paths, q);
      forall p
        ensures Reach(children, p).Some? ==> Reach(AddChild(children, node, c), p) == Reach(children, p)
      {
        AddChildKeeps(children, node, c, p);
      }
      child := |children|;
      AddChildShaped(children, paths, node, c);
      AddChildWords(children, isEnd, paths, node, c);
      paths := paths + [paths[node] + [c]];
      children := AddChild(children, node, c);
      isEnd := isEnd + [false];
    }

    /** Marks `node`, the node the characters `p` lead to, as the end of a word. */
    method MarkEnd(node: nat, ghost p: string)
      requires Valid() && node < |children| && Reach(children, p) == Some(node)
      modifies this
      ensures Valid() && children == old(children)
      ensures isEnd == old(isEnd)[node := true]
      ensures words == old(words) + {p}
    {
      ReachPath(children, paths, p);
      MarkWords(children, isEnd, paths, node);
      isEnd := isEnd[node := true];
      words := words + {p};
    }

    /**
     * Adds `word`: a node per character, the last marked as an end.  The words gain
     * `word`, unless it is empty, and lose none.  The empty word changes nothing, and
     * every prefix that led to a node still leads to the same node.
     */
    method Insert(word: string)
      requires Valid()
      modifies this
      ensures Valid()
      ensures words == if word == [] then old(words) else old(words) + {word}
      ensures word == [] ==> children == old(children) && isEnd == old(isEnd)
      ensures KeepsReach(old(children), children)
    {
      var cur := 0;
      var end := false;
      for i := 0 to |word|
        invariant Valid() && cur < |children|
        invariant end == (i == |word| && i > 0)
        invariant Reach(children, word[..i]) == Some(cur)
        invariant words == if end then old(words) + {word} else old(words)
        invariant i == 0 ==> children == old(children) && isEnd == old(isEnd)
        invariant KeepsReach(old(children), children)
      {
        if i == |word| - 1 {
          end := true;
        }
        ghost var before := children;
        cur := InsertChild(cur, word[i], end, word[..i]);
        KeepsReachTrans(old(children), before, children);
        assert word[..i] + [word[i]] == word[..i + 1];
        if end {
          assert word[..i + 1] == word;
        }
      }
    }

    /** The node `prefix` leads to, `None` when a character has no child. */
    method Find(prefix: string) returns (r: Option<nat>)
      requires Valid()
      ensures r == Reach(children, prefix)
      ensures r.Some? ==> r.value < |children| && paths[r.value] == prefix
    {
      ReachPath(children, paths, prefix);
      r := Descend(children, prefix);
    }

    /**
     * The completions below `node`: `visited` followed by each string that leads from
     * `node` to an end, each once; `visited` itself first when `node` is an end.
     */
    method Collect(node: nat, visited: string) returns (found: seq<string>)
      requires Valid() && node < |children|
      ensures forall x :: x in found <==> Completes(children, isEnd, paths, node, visited, x)
      ensures NoDuplicates(found)
      ensures isEnd[node] ==> found != [] && found[0] == visited
      decreases |children| - node
    {
      EndHere(children, isEnd, paths, node, visited);
      found := [];
      if isEnd[node] {
        found := [visited];
      }
      if |children[node]| == 0 {
        forall x | Completes(children, isEnd, paths, node, visited, x)
          ensures x == visited
        {
          if |x| > |visited| {
            ExitsThroughChild(children, isEnd, paths, node, visited, x);
            assert false;
          }
        }
        return;
      }
      var remaining := children[node].Keys;
      forall x | Completes(children, isEnd, paths, node, visited, x) && x != visited
        ensures x[|visited|] in remaining
      {
        ExitsThroughChild(children, isEnd, paths, node, visited, x);
      }
      while remaining != {}
        invariant remaining <= children[node].Keys
        invariant forall x :: x in found <==>
                    Completes(children, isEnd, paths, node, visited, x) && (x == visited || x[|visited|] !in remaining)
        invariant forall x :: x in found ==> |visited| <= |x|
        invariant NoDuplicates(found)
        invariant isEnd[node] ==> found != [] && found[0] == visited
        decreases |remaining|
      {
        var c :| c in remaining;
        var sub := Collect(children[node][c], visited + [c]);
        forall x
          ensures x in sub <==> Completes(children, isEnd, paths, node, visited, x) && |x| > |visited| && x[|visited|] == c
        {
          StepDown(children, isEnd, paths, node, c, visited, x);
        }
        found := found + sub;
        remaining := remaining - {c};
      }
      forall x | Completes(children, isEnd, paths, node, visited, x) && x != visited
        ensures x in found
      {
        ExitsThroughChild(children, isEnd, paths, node, visited, x);
      }
    }

    /** The suffixes below `node`: each string that leads from `node` to an end, once. */
    method Suffixes(node: nat) returns (found: seq<string>)
      requires Valid() && node < |children|
      ensures forall s :: s in found <==> paths[node] + s in words
      ensures NoDuplicates(found)
      ensures isEnd[node] ==> found != [] && found[0] == ""
    {
      found := Collect(node, "");
      forall s
        ensures s in found <==> paths[node] + s in words
      {
        assert s[..0] == "" && s[0..] == s;
      }
    }
  }

  /** The words of the example the program ends with, in the order they are inserted. */
  const ExampleWords: seq<string> :=
    ["ant", "anthology", "antagonist", "antonym", "fun", "function", "factory",
     "trie", "trigger", "trigonometry", "tripod"]

  /** Inserts each of `ws` in turn; the words gain every non-empty one. */
  method InsertAll(t: Trie, ws: seq<string>)
    requires t.Valid()
    modifies t
    ensures t.Valid()
    ensures t.words == old(t.words) + set w | w in ws && w != []
  {
    for i := 0 to |ws|
      invariant t.Valid()
      invariant t.words == old(t.words) + set w | w in ws[..i] && w != []
    {
      t.Insert(ws[i]);
      assert ws[..i + 1] == ws[..i] + [ws[i]];
    }
    assert ws[..|ws|] == ws;
  }

  /** The trie of the example: the eleven words inserted one after another into a new trie. */
  method BuildExample() returns (t: Trie)
    ensures fresh(t) && t.Valid()
    ensures forall w :: w in t.words <==> w in ExampleWords
  {
    t := new Trie();
    InsertAll(t, ExampleWords);
  }

  /** The example's words that start with "f", with the "f" taken off. */
  lemma CompletionsOfF(s: string)
    ensures "f" + s in ExampleWords <==> s in {"un", "unction", "actory"}
  {
    var x := "f" + s;
    assert x[1..] == s;
    assert |x| == |s| + 1 && x[0] == 'f';
    if s == "un" { assert x == "fun"; }
    if s == "unction" { assert x == "function"; }
    if s == "actory" { assert x == "factory"; }
  }

  /** The example's words that start with "fu", with the "fu" taken off. */
  lemma CompletionsOfFu(s: string)
    ensures "fu" + s in ExampleWords <==> s in {"n", "nction"}
  {
    var x := "fu" + s;
    assert x[2..] == s;
    assert |x| == |s| + 2 && x[0] == 'f' && x[1] == 'u';
    if s == "n" { assert x == "fun"; }
    if s == "nction" { assert x == "function"; }
  }

  /** The example's words that start with "an", with the "an" taken off. */
  lemma CompletionsOfAn(s: string)
    ensures "an" + s in ExampleWords <==> s in {"t", "thology", "tagonist", "tonym"}
  {
    var x := "an" + s;
    assert x[2..] == s;
    assert |x| == |s| + 2 && x[0] == 'a' && x[1] == 'n';
    if s == "t" { assert x == "ant"; }
    if s == "thology" { assert x == "anthology"; }
    if s == "tagonist" { assert x == "antagonist"; }
    if s == "tonym" { assert x == "antonym"; }
  }

  /** In a trie of the example's words, "f", "fu" and "an" each lead to a node. */
  lemma ExampleReached(children: seq<map<char, nat>>, isEnd: seq<bool>, prefix: string)
    requires forall w :: IsWord(children, isEnd, w) <==> w in ExampleWords
    requires prefix == "f" || prefix == "fu" || prefix == "an"
    ensures Reach(children, prefix).Some?
  {
    var w := if prefix == "an" then "antonym" else "function";
    assert w == ExampleWords[3] || w == ExampleWords[5];
    PrefixReached(children, isEnd, w, |prefix|);
    assert w[..|prefix|] == prefix;
  }

  /**
   * The example: the suffixes below the node `prefix` leads to in the example trie,
   * `None` when `prefix` leads nowhere.
   */
  method Example(prefix: string) returns (r: Option<seq<string>>)
    ensures r.Some? ==> forall s :: s in r.value <==> prefix + s in ExampleWords
    ensures prefix == "f" ==> r.Some? && forall s :: s in r.value <==> s in {"un", "unction", "actory"}
    ensures prefix == "fu" ==> r.Some? && forall s :: s in r.value <==> s in {"n", "nction"}
    ensures prefix == "an" ==> r.Some? && forall s :: s in r.value <==> s in {"t", "thology", "tagonist", "tonym"}
  {
    var t := BuildExample();
    var node := t.Find(prefix);
    if node.None? {
      if prefix == "f" || prefix == "fu" || prefix == "an" {
        ExampleReached(t.children, t.isEnd, prefix);
        assert false;
      }
      return None;
    }
    var found := t.Suffixes(node.value);
    r := Some(found);
    if prefix == "f" {
      forall s { CompletionsOfF(s); }
    } else if prefix == "fu" {
      forall s { CompletionsOfFu(s); }
    } else if prefix == "an" {
      forall s { CompletionsOfAn(s); }
    }
  }
}

=== FILE: blockchain.dfy ===
/**
 * A block chain kept as a stack of blocks in a singly linked list: `top` is the
 * newest block and each node's `next` is the block pushed before it.  Every block
 * records the hash of the block that was on top when it was pushed; the first block
 * records 0.  The hash and the timestamp of a new block come from outside (a digest
 * of random letters and the clock) and are inputs here.
 */
module BlockChain {

  /** What a block records as its predecessor's hash: 0 for the first block, else a digest. */
  datatype PreviousHash = Zero | Digest(value: string)

  datatype Block = Block(timestamp: string, data: string, previousHash: PreviousHash, hash: string)

  /**
   * The blocks from the top down are linked: each block records the hash of the one
   * below it, and the bottom block records 0.
   */
  predicate Chained(blocks: seq<Block>) {
    && (forall i :: 0 <= i < |blocks| - 1 ==> blocks[i].previousHash == Digest(blocks[i + 1].hash))
    && (blocks != [] ==> blocks[|blocks| - 1].previousHash == Zero)
  }

  /** The predecessor hash a block pushed onto `blocks` records: 0 on an empty chain. */
  function PreviousOf(blocks: seq<Block>): (p: PreviousHash)
    ensures blocks == [] <==> p == Zero
  {
    if blocks == [] then Zero else Digest(blocks[0].hash)
  }

  /** The blocks, from the top down, after a block of `data` is pushed onto `blocks`. */
  function Pushed(blocks: seq<Block>, timestamp: string, data: string, hash: string): seq<Block> {
    [Block(timestamp, data, PreviousOf(blocks), hash)] + blocks
  }

  /** Pushing keeps a linked chain linked. */
  lemma PushChained(blocks: seq<Block>, timestamp: string, data: string, hash: string)
    requires Chained(blocks)
    ensures Chained(Pushed(blocks, timestamp, data, hash))
  {
    var b := Pushed(blocks, timestamp, data, hash);
    forall i | 0 <= i < |b| - 1
      ensures b[i].previousHash == Digest(b[i + 1].hash)
    {
      if i > 0 {
        assert b[i] == blocks[i - 1] && b[i + 1] == blocks[i];
      }
    }
  }

  /** Any blocks pushed one by one onto an empty chain form a linked chain. */
  function FromPushes(entries: seq<(string, string, string)>): (blocks: seq<Block>)
    ensures |blocks| == |entries| && Chained(blocks)
  {
    if entries == [] then []
    else
      var (timestamp, data, hash) := entries[|entries| - 1];
      var below := FromPushes(entries[..|entries| - 1]);
      PushChained(below, timestamp, data, hash);
      Pushed(below, timestamp, data, hash)
  }

  class Node {
    const block: Block
    var next: Node?

    constructor(block: Block)
      ensures this.block == block && next == null
    {
      this.block := block;
      next := null;
    }
  }

  /** Node `i` links to node `i + 1`, the last node to nothing. */
  ghost predicate LinkedAt(ns: seq<Node>, i: int)
    requires 0 <= i < |ns|
    reads ns[i]
  {
    ns[i].next == if i + 1 < |ns| then ns[i + 1] else null
  }

  /** `ns` is an acyclic list: distinct nodes, each linked to the one after it. */
  ghost predicate Linked(ns: seq<Node>)
    reads ns
  {
    && (forall i, j :: 0 <= i < j < |ns| ==> ns[i] != ns[j])
    && (forall i :: 0 <= i < |ns| ==> LinkedAt(ns, i))
  }

  /** A new node linked to the head of a list makes a longer list. */
  lemma LinkedCons(n: Node, ns: seq<Node>)
    requires Linked(ns) && n !in ns
    requires n.next == if ns == [] then null else ns[0]
    ensures Linked([n] + ns)
  {
    var ns' := [n] + ns;
    forall i | 0 <= i < |ns'|
      ensures LinkedAt(ns', i)
    {
      if 0 < i {
        assert LinkedAt(ns, i - 1);
      }
    }
  }

  class Chain {
    var top: Node?
    var size: nat
    /** The nodes from `top` along `next`. */
    ghost var nodes: seq<Node>

    ghost predicate Valid()
      reads this, nodes
    {
      && size == |nodes|
      && top == (if nodes == [] then null else nodes[0])
      && Linked(nodes)
      && Chained(Blocks())
    }

    /** The blocks from the top down. */
    ghost function Blocks(): seq<Block>
      reads this
    {
      seq(|nodes|, i requires 0 <= i < |nodes| reads this => nodes[i].block)
    }

    /** An empty chain. */
    constructor()
      ensures Valid() && size == 0 && Blocks() == []
    {
      top := null;
      size := 0;
      nodes := [];
    }

    /** The hash of the block on top. */
    method PreviousHash() returns (h: string)
      requires Valid() && top != null
      ensures Digest(h) == PreviousOf(Blocks())
    {
      h := top.block.hash;
    }

    /**
     * Pushes a new block of `data` with the given timestamp and hash.  It records the
     * hash of the old top, or 0 on an empty chain, and links to the old top; the size
     * grows by one; no existing node changes.
     */
    method Push(data: string, timestamp: string, hash: string)
      requires Valid()
      modifies this
      ensures Valid()
      ensures size == old(size) + 1
      ensures Blocks() == Pushed(old(Blocks()), timestamp, data, hash)
      ensures top != null && fresh(top) && top.next == old(top) && nodes == [top] + old(nodes)
      ensures forall n :: n in old(nodes) ==> n.next == old(n.next)
    {
      ghost var before := Blocks();
      var node;
      if top == null {
        node := new Node(Block(timestamp, data, Zero, hash));
      } else {
        var previous := PreviousHash();
        node := new Node(Block(timestamp, data, Digest(previous), hash));
        node.next := top;
      }
      LinkedCons(node, nodes);
      top := node;
      size := size + 1;
      nodes := [node] + nodes;
      assert Blocks() == Pushed(before, timestamp, data, hash);
      PushChained(before, timestamp, data, hash);
    }
  }
}

=== FILE: huffman.dfy ===
/**
 * Huffman coding of a character string: the frequency table, the tree built by
 * repeatedly merging the two lightest trees of the linked-list priority queue,
 * the code table read off the tree, and encoding and decoding with it.
 * A Python exception in decoding (a missing child, a missing character) is `None`.
 */
module Huffman {
  import opened Wrappers
  import opened HuffmanHeap

  // ---------------------------------------------------------------------------
  // The frequency table
  // ---------------------------------------------------------------------------

  /** The number of occurrences of `c` in `s`. */
  function Count(s: string, c: char): nat {
    multiset(s)[c]
  }

  /**
   * The distinct characters of `s` in order of first occurrence: the key order of
   * the frequency dictionary.
   */
  function Distinct(s: string): (d: string)
    ensures forall c :: c in d <==> c in s
    ensures forall i, j :: 0 <= i < j < |d| ==> d[i] != d[j]
  {
    if s == [] then []
    else
      var d := Distinct(s[..|s| - 1]);
      assert forall c :: c in s <==> c in s[..|s| - 1] || c == s[|s| - 1];
      if s[|s| - 1] in d then d else d + [s[|s| - 1]]
  }

  /** The occurrences in `s` of the characters of `keys`, summed. */
  function CountSum(keys: string, s: string): nat {
    if keys == [] then 0 else CountSum(keys[..|keys| - 1], s) + Count(s, keys[|keys| - 1])
  }

  /** The counts a table gives the characters of `keys`, summed. */
  function TotalCount(table: map<char, nat>, keys: string): nat
    requires forall i :: 0 <= i < |keys| ==> keys[i] in table
  {
    if keys == [] then 0 else TotalCount(table, keys[..|keys| - 1]) + table[keys[|keys| - 1]]
  }

  /** Appending `c` to `s` adds one to the sum exactly when `c` is one of the distinct `keys`. */
  lemma {:induction false} CountSumSnoc(keys: string, s: string, c: char)
    requires forall i, j :: 0 <= i < j < |keys| ==> keys[i] != keys[j]
    ensures CountSum(keys, s + [c]) == CountSum(keys, s) + if c in keys then 1 else 0
    decreases |keys|
  {
    if keys != [] {
      var init := keys[..|keys| - 1];
      CountSumSnoc(init, s, c);
      assert multiset(s + [c]) == multiset(s) + multiset{c};
      assert c in keys <==> c in init || c == keys[|keys| - 1];
      assert keys[|keys| - 1] !in init;
    }
  }

  /** The occurrences of the distinct characters of `s` add up to the length of `s`. */
  lemma {:induction false} CountsAddUp(s: string)
    ensures CountSum(Distinct(s), s) == |s|
    decreases |s|
  {
    if s != [] {
      var init, c := s[..|s| - 1], s[|s| - 1];
      assert s == init + [c];
      CountsAddUp(init);
      var d := Distinct(init);
      CountSumSnoc(d, init, c);
      if c !in d {
        assert multiset(s) == multiset(init) + multiset{c};
        assert Distinct(s)[..|Distinct(s)| - 1] == d;
      }
    }
  }

  lemma {:induction false} TotalCountIsCountSum(table: map<char, nat>, keys: string, s: string)
    requires forall i :: 0 <= i < |keys| ==> keys[i] in table && table[keys[i]] == Count(s, keys[i])
    ensures TotalCount(table, keys) == CountSum(keys, s)
    decreases |keys|
  {
    if keys != [] {
      TotalCountIsCountSum(table, keys[..|keys| - 1], s);
    }
  }

  /** `table` counts the characters of `s`, and `keys` lists its keys in insertion order. */
  ghost predicate Tally(table: map<char, nat>, keys: string, s: string) {
    && keys == Distinct(s)
    && (forall c :: c in table <==> c in s)
    && (forall c :: c in table ==> table[c] == Count(s, c))
  }

  /** Counting one more character: a known key goes up by one, a new key starts at one. */
  lemma TallyStep(table: map<char, nat>, keys: string, s: string, ch: char)
    requires Tally(table, keys, s)
    ensures ch in table ==> Tally(table[ch := table[ch] + 1], keys, s + [ch])
    ensures ch !in table ==> Tally(table[ch := 1], keys + [ch], s + [ch])
  {
    var s' := s + [ch];
    assert Distinct(s') == if ch in s then keys else keys + [ch] by {
      assert s'[..|s'| - 1] == s;
    }
    CountSnoc(s, ch);
    var table' := if ch in table then table[ch := table[ch] + 1] else table[ch := 1];
    forall c
      ensures c in table' <==> c in s'
    {
      assert c in s' <==> c in s || c == ch;
    }
    forall c | c in table'
      ensures table'[c] == Count(s', c)
    {
      if c != ch {
        assert table'[c] == table[c];
      }
    }
  }

  lemma CountSnoc(s: string, ch: char)
    ensures forall c :: Count(s + [ch], c) == Count(s, c) + if c == ch then 1 else 0
  {
    assert multiset(s + [ch]) == multiset(s) + multiset{ch};
  }

  /**
   * Counts the characters of `message`.  The dictionary is `table`; `keys` holds
   * its keys in insertion order, the order in which the tree builder visits them.
   */
  method GetFrequencyTable(message: string) returns (table: map<char, nat>, keys: string)
    ensures keys == Distinct(message)
    ensures forall c :: c in table <==> c in message
    ensures forall c :: c in table ==> table[c] == Count(message, c)
    ensures TotalCount(table, keys) == |message|
    ensures table == CountTable(message)
  {
    table := map[];
    keys := [];
    for i := 0 to |message|
      invariant Tally(table, keys, message[..i])
    {
      var ch := message[i];
      TallyStep(table, keys, message[..i], ch);
      assert message[..i + 1] == message[..i] + [ch];
      if ch in table {
        table := table[ch := table[ch] + 1];
      } else {
        table := table[ch := 1];
        keys := keys + [ch];
      }
    }
    assert message[..|message|] == message;
    TotalCountIsCountSum(table, keys, message);
    CountsAddUp(message);
    TableIsCounts(table, message);
  }

  /** A table with exactly the characters of `data`, each mapped to its count, is the count table. */
  lemma TableIsCounts(table: map<char, nat>, data: string)
    requires forall c :: c in table <==> c in data
    requires forall c :: c in table ==> table[c] == Count(data, c)
    ensures table == CountTable(data)
  {
  }

  // ---------------------------------------------------------------------------
  // The tree
  // ---------------------------------------------------------------------------

  /** The leaves of `t` as (character, frequency) pairs. */
  function Leaves(t: Tree): multiset<(char, nat)> {
    match t
    case Leaf(f, c) => multiset{(c, f)}
    case Internal(_, l, r) => Leaves(l) + Leaves(r)
  }

  /** Every internal node's frequency is the sum of its children's. */
  predicate Consistent(t: Tree) {
    match t
    case Leaf(_, _) => true
    case Internal(f, l, r) => f == l.freq + r.freq && Consistent(l) && Consistent(r)
  }

  /** The leaves of `t` are the distinct characters of `data`, once each, with their counts. */
  ghost predicate LeavesAreCounts(t: Tree, data: string) {
    forall p :: Leaves(t)[p] == if p.0 in data && p.1 == Count(data, p.0) then 1 else 0
  }

  /** The leaves of a sequence of trees, together. */
  function LeavesOf(s: seq<Tree>): multiset<(char, nat)> {
    if s == [] then multiset{} else Leaves(s[0]) + LeavesOf(s[1..])
  }

  /** The frequencies of a sequence of trees, summed. */
  function FreqOf(s: seq<Tree>): nat {
    if s == [] then 0 else s[0].freq + FreqOf(s[1..])
  }

  /** The leaves one leaf per key, with the table's count. */
  function KeyLeaves(keys: string, table: map<char, nat>): multiset<(char, nat)>
    requires forall i :: 0 <= i < |keys| ==> keys[i] in table
  {
    if keys == [] then multiset{}
    else KeyLeaves(keys[..|keys| - 1], table) + multiset{(keys[|keys| - 1], table[keys[|keys| - 1]])}
  }

  lemma {:induction false} OfAppend(a: seq<Tree>, b: seq<Tree>)
    ensures LeavesOf(a + b) == LeavesOf(a) + LeavesOf(b)
    ensures FreqOf(a + b) == FreqOf(a) + FreqOf(b)
    decreases |a|
  {
    if a == [] {
      assert a + b == b;
    } else {
      assert (a + b)[0] == a[0] && (a + b)[1..] == a[1..] + b;
      OfAppend(a[1..], b);
    }
  }

  /** A push adds the pushed tree's leaves and frequency to the queue's. */
  lemma OfInsert(s: seq<Tree>, t: Tree)
    ensures LeavesOf(Insert(s, t)) == LeavesOf(s) + Leaves(t)
    ensures FreqOf(Insert(s, t)) == FreqOf(s) + t.freq
  {
    var a, b := SplitAround(s, t);
    OfAppend(a, [t] + b);
    OfAppend(a, b);
  }

  lemma SplitAround(s: seq<Tree>, t: Tree) returns (a: seq<Tree>, b: seq<Tree>)
    ensures Insert(s, t) == a + ([t] + b) && s == a + b
    ensures LeavesOf([t] + b) == Leaves(t) + LeavesOf(b)
    ensures FreqOf([t] + b) == t.freq + FreqOf(b)
  {
    var k := InsertSplit(s, t);
    a, b := s[..k], s[k..];
    assert ([t] + b)[1..] == b;
  }

  /** Distinct keys: each (key, count) pair once, nothing else. */
  lemma {:induction false} KeyLeavesCounts(keys: string, table: map<char, nat>, p: (char, nat))
    requires forall i :: 0 <= i < |keys| ==> keys[i] in table
    requires forall i, j :: 0 <= i < j < |keys| ==> keys[i] != keys[j]
    ensures KeyLeaves(keys, table)[p] == if p.0 in keys && p.1 == table[p.0] then 1 else 0
    decreases |keys|
  {
    if keys != [] {
      var init := keys[..|keys| - 1];
      KeyLeavesCounts(init, table, p);
      assert p.0 in keys <==> p.0 in init || p.0 == keys[|keys| - 1];
      assert keys[|keys| - 1] !in init;
    }
  }

  /** A tree whose leaves are the counts of a message with two distinct characters is not a leaf. */
  lemma TwoSymbolsMakeInternal(t: Tree, data: string, i: nat, j: nat)
    requires LeavesAreCounts(t, data)
    requires i < |data| && j < |data| && data[i] != data[j]
    ensures t.Internal?
  {
    var p, q := (data[i], Count(data, data[i])), (data[j], Count(data, data[j]));
    assert Leaves(t)[p] == 1 && Leaves(t)[q] == 1;
  }

  /** A tree whose leaves are the counts of a message of one repeated character is that one leaf. */
  lemma OneSymbolMakesLeaf(t: Tree, data: string)
    requires LeavesAreCounts(t, data)
    requires data != [] && forall i :: 0 <= i < |data| ==> data[i] == data[0]
    ensures t == Leaf(|data|, data[0])
  {
    assert forall c :: c in data ==> c == data[0];
    SingleCharMultiset(data);
    assert Count(data, data[0]) == |data|;
    if t.Internal? {
      TwoLeafPairs(t);
      assert false;
    }
    assert (t.ch, t.freq) in Leaves(t);
  }

  lemma {:induction false} SingleCharMultiset(data: string)
    requires forall i :: 0 <= i < |data| ==> data[i] == data[0]
    requires data != []
    ensures multiset(data) == multiset{}[data[0] := |data|]
    decreases |data|
  {
    if |data| > 1 {
      var init := data[..|data| - 1];
      SingleCharMultiset(init);
      assert data == init + [data[0]];
    }
  }

  /** An internal node has two leaf pairs below it, or one pair twice. */
  lemma TwoLeafPairs(t: Tree)
    requires t.Internal?
    ensures exists p, q :: Leaves(t)[p] >= 1 && Leaves(t)[q] >= 1 && (p != q || Leaves(t)[p] >= 2)
  {
    LeavesNonEmpty(t.left);
    LeavesNonEmpty(t.right);
    var p :| p in Leaves(t.left);
    var q :| q in Leaves(t.right);
    assert Leaves(t)[p] >= 1 && Leaves(t)[q] >= 1;
  }

  lemma LeavesNonEmpty(t: Tree)
    ensures exists p :: p in Leaves(t)
  {
    match t
    case Leaf(f, c) =>
      assert (c, f) in Leaves(t);
    case Internal(_, l, r) =>
      LeavesNonEmpty(l);
      var p :| p in Leaves(l);
      assert p in Leaves(t);
  }

  /**
   * The Huffman tree of non-empty `data`: the leaves of its characters pushed in order
   * of first occurrence, then merged two lightest at a time until one tree is left.
   */
  function HuffmanTree(data: string): Tree
    requires data != []
  {
    assert data[0] in Distinct(data);
    Merged(LeafQueue(Distinct(data), CountTable(data)))[0]
  }

  /**
   * Builds the Huffman tree of `data`: a leaf per distinct character, then the two
   * lightest trees merged under a new node until one tree is left.
   */
  method GetHuffmanTree(data: string) returns (tree: Option<Tree>)
    ensures tree.None? <==> data == []
    ensures tree.Some? ==> Consistent(tree.value)
    ensures tree.Some? ==> tree.value.freq == |data|
    ensures tree.Some? ==> LeavesAreCounts(tree.value, data)
    ensures tree.Some? ==> tree.value == HuffmanTree(data)
  {
    var table, keys := GetFrequencyTable(data);
    var heap := new MinHeap();
    PushLeaves(heap, table, keys);
    MergeAll(heap, KeyLeaves(keys, table), |data|);
    ghost var last := heap.Contents();
    tree := heap.Pop();
    if tree.Some? {
      LastTree(last, KeyLeaves(keys, table), |data|);
      KeyLeavesAreCounts(keys, table, data);
    }
  }

  /** The second loop: merge the two lightest trees until at most one is left. */
  method MergeAll(heap: MinHeap, ghost leaves: multiset<(char, nat)>, ghost total: nat)
    requires heap.Valid() && Holds(heap.Contents(), leaves, total)
    modifies heap.Repr
    ensures heap.Valid() && fresh(heap.Repr - old(heap.Repr))
    ensures |heap.Contents()| == if old(heap.Contents()) == [] then 0 else 1
    ensures heap.Contents() == Merged(old(heap.Contents()))
    ensures Holds(heap.Contents(), leaves, total)
  {
    var size := heap.GetSize();
    while size > 1
      invariant heap.Valid() && fresh(heap.Repr - old(heap.Repr))
      invariant size == |heap.Contents()|
      invariant old(heap.Contents()) != [] ==> 1 <= size
      invariant old(heap.Contents()) == [] ==> size == 0
      invariant Holds(heap.Contents(), leaves, total)
      invariant Merged(heap.Contents()) == Merged(old(heap.Contents()))
      decreases size
    {
      MergeLightest(heap, leaves, total);
      size := heap.GetSize();
    }
  }

  /** Every tree of the queue is consistent. */
  predicate AllConsistent(s: seq<Tree>) {
    forall j :: 0 <= j < |s| ==> Consistent(s[j])
  }

  /**
   * The queue `s` holds the leaves `leaves` and weighs `total`; its trees are
   * consistent and in push order.
   */
  ghost predicate Holds(s: seq<Tree>, leaves: multiset<(char, nat)>, total: nat) {
    LeavesOf(s) == leaves && FreqOf(s) == total && AllConsistent(s) && Ordered(s)
  }

  /** The one tree left holds every leaf and the whole weight. */
  lemma LastTree(s: seq<Tree>, leaves: multiset<(char, nat)>, total: nat)
    requires |s| == 1 && Holds(s, leaves, total)
    ensures Consistent(s[0]) && s[0].freq == total && Leaves(s[0]) == leaves
  {
    assert LeavesOf(s) == Leaves(s[0]) && FreqOf(s) == s[0].freq by {
      assert s[1..] == [];
    }
  }

  /** One leaf per distinct character of `data`, with its count. */
  lemma KeyLeavesAreCounts(keys: string, table: map<char, nat>, data: string)
    requires forall c :: c in keys <==> c in data
    requires forall i, j :: 0 <= i < j < |keys| ==> keys[i] != keys[j]
    requires forall c :: c in table <==> c in data
    requires forall c :: c in table ==> table[c] == Count(data, c)
    ensures forall p :: KeyLeaves(keys, table)[p] == if p.0 in data && p.1 == Count(data, p.0) then 1 else 0
  {
    forall p
      ensures KeyLeaves(keys, table)[p] == if p.0 in data && p.1 == Count(data, p.0) then 1 else 0
    {
      KeyLeavesCounts(keys, table, p);
    }
  }

  /** The count of each character of `data`: the frequency dictionary. */
  function CountTable(data: string): (table: map<char, nat>)
    ensures forall c :: c in table <==> c in data
  {
    map c | c in data :: Count(data, c)
  }

  /** The queue after pushing a leaf per key, in key order, each weighing its count in `table`. */
  function LeafQueue(keys: string, table: map<char, nat>): (s: seq<Tree>)
    requires forall i :: 0 <= i < |keys| ==> keys[i] in table
    ensures |s| == |keys|
  {
    if keys == [] then []
    else
      var c := keys[|keys| - 1];
      var s := LeafQueue(keys[..|keys| - 1], table);
      InsertPermutes(s, Leaf(table[c], c));
      Insert(s, Leaf(table[c], c))
  }

  /** The first loop: a leaf per key of the table, in key order. */
  method PushLeaves(heap: MinHeap, table: map<char, nat>, keys: string)
    requires heap.Valid() && heap.Contents() == []
    requires forall i :: 0 <= i < |keys| ==> keys[i] in table
    modifies heap.Repr
    ensures heap.Valid() && fresh(heap.Repr - old(heap.Repr))
    ensures heap.Contents() == LeafQueue(keys, table)
    ensures Holds(heap.Contents(), KeyLeaves(keys, table), TotalCount(table, keys))
  {
    for i := 0 to |keys|
      invariant heap.Valid() && fresh(heap.Repr - old(heap.Repr))
      invariant heap.Contents() == LeafQueue(keys[..i], table)
    {
      heap.Push(Leaf(table[keys[i]], keys[i]));
      assert keys[..i + 1][..i] == keys[..i];
    }
    assert keys[..|keys|] == keys;
    LeafQueueHolds(keys, table);
  }

  /** The leaf queue of `keys` holds one leaf per key, weighs their counts, and is in push order. */
  lemma {:induction false} LeafQueueHolds(keys: string, table: map<char, nat>)
    requires forall i :: 0 <= i < |keys| ==> keys[i] in table
    ensures Holds(LeafQueue(keys, table), KeyLeaves(keys, table), TotalCount(table, keys))
    ensures AllLeaves(LeafQueue(keys, table))
    decreases |keys|
  {
    if keys != [] {
      var n := |keys| - 1;
      LeafQueueHolds(keys[..n], table);
      NextKey(LeafQueue(keys[..n], table), keys, table, n);
      assert keys[..n + 1] == keys;
    }
  }

  /** Pushing the leaf of key `i` gives a queue holding the leaves of the keys up to `i`. */
  lemma NextKey(s: seq<Tree>, keys: string, table: map<char, nat>, i: int)
    requires 0 <= i < |keys| && forall j :: 0 <= j < |keys| ==> keys[j] in table
    requires Holds(s, KeyLeaves(keys[..i], table), TotalCount(table, keys[..i])) && AllLeaves(s)
    requires s == LeafQueue(keys[..i], table)
    ensures var s' := Insert(s, Leaf(table[keys[i]], keys[i]));
            && Holds(s', KeyLeaves(keys[..i + 1], table), TotalCount(table, keys[..i + 1]))
            && AllLeaves(s') && |s'| == |s| + 1 && s' == LeafQueue(keys[..i + 1], table)
  {
    var leaf := Leaf(table[keys[i]], keys[i]);
    OfInsert(s, leaf);
    InsertPermutes(s, leaf);
    InsertKeepsOrder(s, leaf);
    ConsistentInsert(s, leaf);
    var pre := keys[..i + 1];
    assert pre[..|pre| - 1] == keys[..i] && pre[|pre| - 1] == keys[i];
  }

  /** Taking two trees off the front of a queue. */
  lemma TwoOff(s: seq<Tree>)
    requires |s| >= 2
    ensures LeavesOf(s) == Leaves(s[0]) + Leaves(s[1]) + LeavesOf(s[2..])
    ensures FreqOf(s) == s[0].freq + s[1].freq + FreqOf(s[2..])
    ensures AllConsistent(s) ==> Consistent(s[0]) && Consistent(s[1]) && AllConsistent(s[2..])
    ensures Ordered(s) ==> Ordered(s[2..])
  {
    assert s[1..][0] == s[1] && s[1..][1..] == s[2..];
    TailSorted(s);
    TailSorted(s[1..]);
  }

  /**
   * One round of the merge loop: pop the two lightest trees and push a new node
   * over them, weighing their sum.
   */
  method MergeLightest(heap: MinHeap, ghost leaves: multiset<(char, nat)>, ghost total: nat)
    requires heap.Valid() && |heap.Contents()| >= 2
    requires Holds(heap.Contents(), leaves, total)
    modifies heap.Repr
    ensures heap.Valid() && fresh(heap.Repr - old(heap.Repr))
    ensures |heap.Contents()| == |old(heap.Contents())| - 1
    ensures heap.Contents() == MergeOnce(old(heap.Contents()))
    ensures Holds(heap.Contents(), leaves, total)
  {
    ghost var s := heap.Contents();
    var left := heap.Pop();
    var right := heap.Pop();
    assert left == Some(s[0]) && right == Some(s[1]) && heap.Contents() == s[2..] by {
      assert s[1..][0] == s[1] && s[1..][1..] == s[2..];
    }
    var merged := Internal(left.value.freq + right.value.freq, left.value, right.value);
    MergeKeeps(s, merged, leaves, total);
    heap.Push(merged);
    assert heap.Contents() == MergeOnce(s);
  }

  /** One round of merging: the two front trees go under a new node, which is pushed back. */
  function MergeOnce(s: seq<Tree>): (r: seq<Tree>)
    requires |s| >= 2
    ensures |r| == |s| - 1
  {
    var merged := Internal(s[0].freq + s[1].freq, s[0], s[1]);
    InsertPermutes(s[2..], merged);
    Insert(s[2..], merged)
  }

  /** Rounds of merging until at most one tree is left. */
  function Merged(s: seq<Tree>): (r: seq<Tree>)
    ensures |r| == if s == [] then 0 else 1
    decreases |s|
  {
    if |s| <= 1 then s else Merged(MergeOnce(s))
  }

  /**
   * In a queue in push order, a round of merging takes the two lightest trees, the
   * lighter on the left, and puts a node weighing their sum in place of them.
   */
  lemma MergeOnceLightest(s: seq<Tree>)
    requires |s| >= 2 && Ordered(s)
    ensures s[0].freq <= s[1].freq
    ensures forall i :: 2 <= i < |s| ==> s[1].freq <= s[i].freq
    ensures multiset(MergeOnce(s)) == multiset(s[2..]) + multiset{Internal(s[0].freq + s[1].freq, s[0], s[1])}
  {
    assert !Before(s[1], s[0]);
    forall i | 2 <= i < |s|
      ensures s[1].freq <= s[i].freq
    {
      assert !Before(s[i], s[1]);
    }
    InsertPermutes(s[2..], Internal(s[0].freq + s[1].freq, s[0], s[1]));
  }

  /** Replacing the two front trees by a node over them keeps what the queue holds. */
  lemma MergeKeeps(s: seq<Tree>, merged: Tree, leaves: multiset<(char, nat)>, total: nat)
    requires |s| >= 2 && Holds(s, leaves, total)
    requires merged == Internal(s[0].freq + s[1].freq, s[0], s[1])
    ensures Holds(Insert(s[2..], merged), leaves, total)
    ensures |Insert(s[2..], merged)| == |s| - 1
    ensures MergeOnce(s) == Insert(s[2..], merged)
  {
    var rest := s[2..];
    TwoOff(s);
    OfInsert(rest, merged);
    InsertPermutes(rest, merged);
    InsertKeepsOrder(rest, merged);
    ConsistentInsert(rest, merged);
  }

  /** A push of a consistent tree keeps every tree of the queue consistent. */
  lemma ConsistentInsert(s: seq<Tree>, t: Tree)
    requires AllConsistent(s) && Consistent(t)
    ensures AllConsistent(Insert(s, t))
  {
    var k := InsertSplit(s, t);
    var u := Insert(s, t);
    forall j | 0 <= j < |u|
      ensures Consistent(u[j])
    {
      if j < k {
        assert u[j] == s[j];
      } else if j > k {
        assert u[j] == s[j - 1];
      }
    }
  }

  // ---------------------------------------------------------------------------
  // Codes
  // ---------------------------------------------------------------------------

  /** The node reached from `t` by following `bits`: '0' goes left, anything else right. */
  function Descend(t: Tree, bits: string): Option<Tree>
    decreases |bits|
  {
    if bits == [] then Some(t)
    else match t
      case Leaf(_, _) => None
      case Internal(_, l, r) => Descend(if bits[0] == '0' then l else r, bits[1..])
  }

  predicate IsBits(s: string) {
    forall i :: 0 <= i < |s| ==> s[i] == '0' || s[i] == '1'
  }

  /**
   * The code of every leaf below `t`, each prefixed with `prefix`: "0" for a step
   * left, "1" for a step right.  A later leaf with the same character overrides.
   */
  function Codes(t: Tree, prefix: string): map<char, string> {
    match t
    case Leaf(_, c) => map[c := prefix]
    case Internal(_, l, r) => Codes(l, prefix + "0") + Codes(r, prefix + "1")
  }

  /** The code table of a tree: the codes from its root. */
  function EncodingTable(t: Tree): map<char, string> {
    Codes(t, "")
  }

  /** A leaf holding `c`. */
  predicate IsLeafOf(o: Option<Tree>, c: char) {
    o.Some? && o.value.Leaf? && o.value.ch == c
  }

  /**
   * Each code is `prefix` followed by a 0/1 path that leads from `t` to a leaf
   * holding the code's character, and every leaf's character has a code.
   */
  lemma {:induction false} CodesAreLeafPaths(t: Tree, prefix: string)
    requires IsBits(prefix)
    ensures forall c :: c in Codes(t, prefix) ==> CodePath(t, prefix, Codes(t, prefix)[c], c)
    ensures forall p :: p in Leaves(t) ==> p.0 in Codes(t, prefix)
  {
    match t
    case Leaf(_, c) =>
      assert prefix[|prefix|..] == [];
    case Internal(_, l, r) =>
      var pl, pr := prefix + "0", prefix + "1";
      CodesAreLeafPaths(l, pl);
      CodesAreLeafPaths(r, pr);
      forall c | c in Codes(t, prefix)
        ensures CodePath(t, prefix, Codes(t, prefix)[c], c)
      {
        if c in Codes(r, pr) {
          StepUp(t, prefix, '1', Codes(r, pr)[c], c);
        } else {
          StepUp(t, prefix, '0', Codes(l, pl)[c], c);
        }
      }
  }

  /** `code` starts with `prefix` and goes on along a 0/1 path from `t` to a leaf holding `c`. */
  predicate CodePath(t: Tree, prefix: string, code: string, c: char) {
    |prefix| <= |code| && code[..|prefix|] == prefix && IsBits(code)
    && IsLeafOf(Descend(t, code[|prefix|..]), c)
  }

  /** A path from a child of `t` is, one bit longer, a path from `t`. */
  lemma StepUp(t: Tree, prefix: string, bit: char, code: string, c: char)
    requires t.Internal? && (bit == '0' || bit == '1')
    requires CodePath(if bit == '0' then t.left else t.right, prefix + [bit], code, c)
    ensures CodePath(t, prefix, code, c)
  {
    var pb := prefix + [bit];
    assert code[..|pb|][..|prefix|] == code[..|prefix|];
    assert code[|prefix|..][1..] == code[|pb|..];
    assert code[|prefix|..][0] == bit;
  }

  /** Following `a` and then `b` is following `a + b`. */
  lemma {:induction false} DescendAppend(t: Tree, a: string, b: string)
    ensures Descend(t, a + b) == if Descend(t, a).None? then None else Descend(Descend(t, a).value, b)
    decreases |a|
  {
    if a == [] {
      assert a + b == b;
    } else if t.Internal? {
      assert (a + b)[1..] == a[1..] + b;
      assert (a + b)[0] == a[0];
      DescendAppend(if a[0] == '0' then t.left else t.right, a[1..], b);
    }
  }

  /** Nothing lies below a leaf: a path that reaches one and goes on leads nowhere. */
  lemma PastLeaf(t: Tree, a: string, rest: string)
    requires Descend(t, a).Some? && Descend(t, a).value.Leaf?
    ensures Descend(t, a + rest) == if rest == [] then Descend(t, a) else None
  {
    DescendAppend(t, a, rest);
  }

  /** No code is a prefix of another character's code. */
  lemma PrefixFree(t: Tree, c1: char, c2: char)
    requires c1 in EncodingTable(t) && c2 in EncodingTable(t) && c1 != c2
    ensures !(|EncodingTable(t)[c1]| <= |EncodingTable(t)[c2]|
              && EncodingTable(t)[c2][..|EncodingTable(t)[c1]|] == EncodingTable(t)[c1])
  {
    CodesAreLeafPaths(t, "");
    var a, b := EncodingTable(t)[c1], EncodingTable(t)[c2];
    assert a[0..] == a && b[0..] == b;
    if |a| <= |b| && b[..|a|] == a {
      var rest := b[|a|..];
      assert b == a + rest;
      PastLeaf(t, a, rest);
      assert false;
    }
  }

  // ---------------------------------------------------------------------------
  // Encoding
  // ---------------------------------------------------------------------------

  /** The codes of the characters of `data`, joined. */
  function EncodeWith(table: map<char, string>, data: string): string
    requires forall i :: 0 <= i < |data| ==> data[i] in table
  {
    if data == [] then [] else EncodeWith(table, data[..|data| - 1]) + table[data[|data| - 1]]
  }

  /**
   * Encodes `data`: "" and no tree for the empty string, else the codes of its
   * characters from the Huffman tree of `data`, and that tree.
   */
  method HuffmanEncoding(data: string) returns (encoded: string, tree: Option<Tree>)
    ensures data == [] ==> encoded == [] && tree == None
    ensures data != [] ==> tree == Some(HuffmanTree(data)) && Consistent(tree.value)
                           && tree.value.freq == |data| && LeavesAreCounts(tree.value, data)
    ensures tree.Some? ==> (forall i :: 0 <= i < |data| ==> data[i] in EncodingTable(tree.value))
                           && encoded == EncodeWith(EncodingTable(tree.value), data)
    ensures tree.Some? && tree.value.Internal? ==> Decoding(encoded, tree) == Some(data)
    ensures tree.Some? && tree.value.Leaf? ==> encoded == []
  {
    if data == [] {
      return [], None;
    }
    tree := GetHuffmanTree(data);
    var t := tree.value;
    var table := EncodingTable(t);
    EveryCharacterCoded(t, data);
    encoded := [];
    for i := 0 to |data|
      invariant encoded == EncodeWith(table, data[..i])
    {
      assert data[..i + 1][..i] == data[..i];
      encoded := encoded + table[data[i]];
    }
    assert data[..|data|] == data;
    if t.Internal? {
      RoundTrip(t, data);
    } else {
      EmptyCodes(t, data);
    }
  }

  /** In a tree whose leaves are the counts of `data`, every character of `data` has a code. */
  lemma EveryCharacterCoded(t: Tree, data: string)
    requires LeavesAreCounts(t, data)
    ensures forall i :: 0 <= i < |data| ==> data[i] in EncodingTable(t)
  {
    CodesAreLeafPaths(t, "");
    forall i | 0 <= i < |data|
      ensures data[i] in EncodingTable(t)
    {
      assert Leaves(t)[(data[i], Count(data, data[i]))] == 1;
    }
  }

  /** A lone leaf's code is empty, so every message over it encodes to "". */
  lemma {:induction false} EmptyCodes(t: Tree, data: string)
    requires t.Leaf?
    requires forall i :: 0 <= i < |data| ==> data[i] in EncodingTable(t)
    ensures EncodeWith(EncodingTable(t), data) == []
    decreases |data|
  {
    if data != [] {
      EmptyCodes(t, data[..|data| - 1]);
    }
  }

  // ---------------------------------------------------------------------------
  // Decoding
  // ---------------------------------------------------------------------------

  /** The child a bit selects: '0' the left, anything else the right; a leaf has none. */
  function Child(t: Tree, bit: char): Option<Tree> {
    match t
    case Leaf(_, _) => None
    case Internal(_, l, r) => Some(if bit == '0' then l else r)
  }

  /**
   * The decoding loop from node `cur` with `out` decoded so far: at a leaf, emit its
   * character and restart at `root`; then take the child the bit selects.  `None`
   * when there is no such child; otherwise the last node reached and the output.
   */
  function Run(root: Tree, cur: Tree, out: string, bits: string): Option<(Tree, string)>
    decreases |bits|
  {
    if bits == [] then Some((cur, out))
    else
      var node := if cur.Leaf? then root else cur;
      var out' := if cur.Leaf? then out + [cur.ch] else out;
      var next := Child(node, bits[0]);
      if next.None? then None else Run(root, next.value, out', bits[1..])
  }

  /**
   * Decodes `bits` with `tree`: "" for no bits or no tree; otherwise the loop's output
   * and the character of the leaf it ends on, `None` when it ends elsewhere.
   */
  function Decoding(bits: string, tree: Option<Tree>): Option<string> {
    if bits == [] || tree.None? then Some([])
    else
      match Run(tree.value, tree.value, [], bits)
      case None => None
      case Some((cur, out)) => if cur.Leaf? then Some(out + [cur.ch]) else None
  }

  method HuffmanDecoding(data: string, tree: Option<Tree>) returns (message: Option<string>)
    ensures message == Decoding(data, tree)
    ensures tree.Some? && tree.value.Internal? ==>
              forall m :: ((forall i :: 0 <= i < |m| ==> m[i] in EncodingTable(tree.value))
                           && data == EncodeWith(EncodingTable(tree.value), m)) ==> message == Some(m)
  {
    if tree.Some? && tree.value.Internal? {
      forall m | (forall i :: 0 <= i < |m| ==> m[i] in EncodingTable(tree.value))
                 && data == EncodeWith(EncodingTable(tree.value), m)
        ensures Decoding(data, tree) == Some(m)
      {
        RoundTrip(tree.value, m);
      }
    }
    if data == [] || tree.None? {
      return Some([]);
    }
    var root := tree.value;
    var cur := root;
    var out := [];
    for i := 0 to |data|
      invariant Run(root, cur, out, data[i..]) == Run(root, root, [], data)
    {
      assert data[i..][1..] == data[i + 1..];
      if cur.Leaf? {
        out := out + [cur.ch];
        cur := root;
      }
      var next := Child(cur, data[i]);
      if next.None? {
        return None;
      }
      cur := next.value;
    }
    if cur.Leaf? {
      message := Some(out + [cur.ch]);
    } else {
      message := None;
    }
  }

  /** Running over `a + b` is running over `a`, then over `b` from where it stopped. */
  lemma {:induction false} RunAppend(root: Tree, cur: Tree, out: string, a: string, b: string)
    ensures Run(root, cur, out, a + b)
         == if Run(root, cur, out, a).None? then None
            else Run(root, Run(root, cur, out, a).value.0, Run(root, cur, out, a).value.1, b)
    decreases |a|
  {
    if a == [] {
      assert a + b == b;
    } else {
      assert (a + b)[1..] == a[1..] + b;
      assert (a + b)[0] == a[0];
      var node := if cur.Leaf? then root else cur;
      var out' := if cur.Leaf? then out + [cur.ch] else out;
      var next := Child(node, a[0]);
      if next.Some? {
        RunAppend(root, next.value, out', a[1..], b);
      }
    }
  }

  /** Following a path to a leaf passes only internal nodes, so the loop emits nothing on the way. */
  lemma {:induction false} RunDescend(root: Tree, t: Tree, out: string, bits: string)
    requires Descend(t, bits).Some?
    ensures Run(root, t, out, bits) == Some((Descend(t, bits).value, out))
    decreases |bits|
  {
    if bits != [] {
      RunDescend(root, Child(t, bits[0]).value, out, bits[1..]);
    }
  }

  /**
   * The round trip: with an internal root, decoding the joined codes of `m` gives
   * back `m`.
   */
  lemma RoundTrip(t: Tree, m: string)
    requires t.Internal?
    requires forall i :: 0 <= i < |m| ==> m[i] in EncodingTable(t)
    ensures Decoding(EncodeWith(EncodingTable(t), m), Some(t)) == Some(m)
  {
    if m != [] {
      var table := EncodingTable(t);
      var init, c := m[..|m| - 1], m[|m| - 1];
      assert init + [c] == m;
      var bits := EncodeWith(table, m);
      RunCodes(t, m);
      var leaf := Descend(t, table[c]).value;
      assert bits != [] by {
        assert table[c] != [];
        assert bits == EncodeWith(table, init) + table[c];
      }
      DecodingOfRun(t, bits, leaf, init);
    }
  }

  /** A loop that ends on a leaf decodes to its output and that leaf's character. */
  lemma DecodingOfRun(t: Tree, bits: string, leaf: Tree, out: string)
    requires bits != [] && Run(t, t, [], bits) == Some((leaf, out)) && leaf.Leaf?
    ensures Decoding(bits, Some(t)) == Some(out + [leaf.ch])
  {
  }

  /** After the codes of a non-empty `m`, the loop stands on the leaf of its last character. */
  lemma {:induction false} RunCodes(t: Tree, m: string)
    requires t.Internal? && m != []
    requires forall i :: 0 <= i < |m| ==> m[i] in EncodingTable(t)
    ensures IsLeafOf(Descend(t, EncodingTable(t)[m[|m| - 1]]), m[|m| - 1])
    ensures Run(t, t, [], EncodeWith(EncodingTable(t), m))
         == Some((Descend(t, EncodingTable(t)[m[|m| - 1]]).value, m[..|m| - 1]))
    decreases |m|
  {
    var table := EncodingTable(t);
    CodesAreLeafPaths(t, "");
    var init, c := m[..|m| - 1], m[|m| - 1];
    var code := table[c];
    assert code[0..] == code;
    assert code != [];
    if init == [] {
      assert EncodeWith(table, m) == EncodeWith(table, init) + code;
      assert EncodeWith(table, m) == code;
      RunDescend(t, t, [], code);
    } else {
      assert forall i :: 0 <= i < |init| ==> init[i] == m[i];
      RunCodes(t, init);
      assert EncodeWith(table, m) == EncodeWith(table, init) + code;
      RunAppend(t, t, [], EncodeWith(table, init), code);
      var leaf := Descend(t, table[init[|init| - 1]]).value;
      var child := Child(t, code[0]).value;
      assert Descend(t, code) == Descend(child, code[1..]);
      RunDescend(t, child, init[..|init| - 1] + [leaf.ch], code[1..]);
      assert init[..|init| - 1] + [leaf.ch] == init;
    }
  }

  /**
   * Encoding then decoding `data`, as the two functions are written: the message
   * comes back when it has two distinct characters, and is lost when it has one.
   */
  method EncodeThenDecode(data: string) returns (decoded: Option<string>)
    ensures data == [] ==> decoded == Some([])
    ensures (exists i, j :: 0 <= i < |data| && 0 <= j < |data| && data[i] != data[j]) ==> decoded == Some(data)
    ensures data != [] && (forall i :: 0 <= i < |data| ==> data[i] == data[0]) ==> decoded == Some([])
  {
    var encoded, tree := HuffmanEncoding(data);
    decoded := HuffmanDecoding(encoded, tree);
    if exists i, j :: 0 <= i < |data| && 0 <= j < |data| && data[i] != data[j] {
      var i, j :| 0 <= i < |data| && 0 <= j < |data| && data[i] != data[j];
      TwoSymbolsMakeInternal(tree.value, data, i, j);
    }
    if data != [] && forall i :: 0 <= i < |data| ==> data[i] == data[0] {
      OneSymbolMakesLeaf(tree.value, data);
    }
  }

  // ---------------------------------------------------------------------------
  // A single distinct character, corrected
  // ---------------------------------------------------------------------------

  /** The code table with a lone leaf given the one-bit code "0". */
  function FixedEncodingTable(t: Tree): map<char, string> {
    if t.Leaf? then map[t.ch := "0"] else EncodingTable(t)
  }

  /** Decoding where a lone leaf decodes every bit to its character. */
  function FixedDecoding(bits: string, tree: Option<Tree>): Option<string> {
    if tree.Some? && tree.value.Leaf? then Some(seq(|bits|, _ => tree.value.ch))
    else Decoding(bits, tree)
  }

  /** With the corrected table and decoding, every message over the table's characters comes back. */
  lemma FixedRoundTrip(t: Tree, m: string)
    requires forall i :: 0 <= i < |m| ==> m[i] in FixedEncodingTable(t)
    ensures FixedDecoding(EncodeWith(FixedEncodingTable(t), m), Some(t)) == Some(m)
  {
    if t.Leaf? {
      LeafEncoding(t.ch, m);
    } else {
      RoundTrip(t, m);
    }
  }

  lemma {:induction false} LeafEncoding(c: char, m: string)
    requires forall i :: 0 <= i < |m| ==> m[i] in map[c := "0"]
    ensures EncodeWith(map[c := "0"], m) == seq(|m|, _ => '0')
    ensures m == seq(|m|, _ => c)
    decreases |m|
  {
    if m != [] {
      LeafEncoding(c, m[..|m| - 1]);
      assert m == m[..|m| - 1] + [m[|m| - 1]];
    }
  }

  /** Encoding with the corrected table, then decoding with the corrected decoder. */
  method FixedEncodeThenDecode(data: string) returns (decoded: Option<string>)
    ensures decoded == Some(data)
  {
    var encoded, tree := HuffmanEncoding(data);
    if tree.None? {
      decoded := FixedDecoding(encoded, tree);
      return;
    }
    var t := tree.value;
    var table := FixedEncodingTable(t);
    CodesAreLeafPaths(t, "");
    forall i | 0 <= i < |data|
      ensures data[i] in table
    {
      if t.Leaf? {
        assert Leaves(t)[(data[i], Count(data, data[i]))] == 1;
      }
    }
    var fixed := EncodeWith(table, data);
    FixedRoundTrip(t, data);
    decoded := FixedDecoding(fixed, tree);
  }
}

=== FILE: huffman_heap.dfy ===
/**
 * The Huffman coder's priority queue: a singly linked list of heap nodes, kept
 * sorted by frequency, into which `Push` walks to find the insertion point and
 * from whose head `Pop` takes a node.  The list's view as a sequence of trees is
 * `Contents()`; `Insert` is the specification of one push on that view.
 */
module HuffmanHeap {
  import opened Wrappers

  /** A node of the Huffman tree: a leaf carries a character, an internal node two subtrees. */
  datatype Tree = Leaf(freq: nat, ch: char) | Internal(freq: nat, left: Tree, right: Tree)

  /**
   * The order push uses: smaller frequency first and, between two leaves of equal
   * frequency, the smaller character first.  A node without a character is never
   * ordered against a node of equal frequency.
   */
  predicate Before(x: Tree, y: Tree) {
    x.freq < y.freq || (x.freq == y.freq && x.Leaf? && y.Leaf? && x.ch < y.ch)
  }

  /** One push on the list `s`: at the head when `t` comes before the head, else after the walk. */
  function Insert(s: seq<Tree>, t: Tree): seq<Tree> {
    if s == [] || Before(t, s[0]) then [t] + s else [s[0]] + Walk(s[1..], t)
  }

  /** The walk after the head: skip every node that comes before `t`, then place `t`. */
  function Walk(u: seq<Tree>, t: Tree): seq<Tree> {
    if u != [] && Before(u[0], t) then [u[0]] + Walk(u[1..], t) else [t] + u
  }

  /** Frequencies never decrease along the list. */
  predicate FreqSorted(s: seq<Tree>) {
    forall i, j :: 0 <= i < j < |s| ==> s[i].freq <= s[j].freq
  }

  /** No node comes, by `Before`, before a node ahead of it in the list. */
  predicate Ordered(s: seq<Tree>) {
    forall i, j :: 0 <= i < j < |s| ==> !Before(s[j], s[i])
  }

  predicate AllLeaves(s: seq<Tree>) {
    forall i :: 0 <= i < |s| ==> s[i].Leaf?
  }

  lemma BeforeAsymmetric(x: Tree, y: Tree)
    ensures Before(x, y) ==> !Before(y, x)
  {
  }

  /** The walk places `t` after the nodes that come before it, ahead of the first that does not. */
  lemma {:induction false} WalkSplit(u: seq<Tree>, t: Tree) returns (k: nat)
    ensures k <= |u| && Walk(u, t) == u[..k] + [t] + u[k..]
    ensures forall j :: 0 <= j < k ==> Before(u[j], t)
    ensures k < |u| ==> !Before(u[k], t)
    decreases |u|
  {
    if u != [] && Before(u[0], t) {
      var k' := WalkSplit(u[1..], t);
      k := k' + 1;
      assert u[..k] == [u[0]] + u[1..][..k'];
      assert u[k..] == u[1..][k'..];
    } else {
      k := 0;
    }
  }

  /** A walk over `s[lo..]` that stops at `k` places `t` there. */
  lemma {:induction false} WalkStopsAt(s: seq<Tree>, lo: nat, t: Tree, k: nat)
    requires lo <= k <= |s|
    requires forall j :: lo <= j < k ==> Before(s[j], t)
    requires k < |s| ==> !Before(s[k], t)
    ensures Walk(s[lo..], t) == s[lo..k] + [t] + s[k..]
    decreases k - lo
  {
    if lo < k {
      WalkStopsAt(s, lo + 1, t, k);
      assert s[lo..][0] == s[lo] && s[lo..][1..] == s[lo + 1..];
      assert s[lo..k] == [s[lo]] + s[lo + 1..k];
    } else {
      assert s[lo..k] == [];
    }
  }

  /** A push whose walk stops behind node `k` places `t` there. */
  lemma InsertStopsAt(s: seq<Tree>, t: Tree, k: nat)
    requires k < |s| && !Before(t, s[0])
    requires forall j :: 0 < j <= k ==> Before(s[j], t)
    requires k + 1 < |s| ==> !Before(s[k + 1], t)
    ensures Insert(s, t) == s[..k + 1] + [t] + s[k + 1..]
  {
    WalkStopsAt(s, 1, t, k + 1);
    assert Insert(s, t) == [s[0]] + Walk(s[1..], t);
    assert s[..k + 1] == [s[0]] + s[1..k + 1];
    assert [s[0]] + (s[1..k + 1] + [t] + s[k + 1..]) == ([s[0]] + s[1..k + 1]) + [t] + s[k + 1..];
  }

  /**
   * Where a push puts `t`: after a head that `t` does not come before and after the
   * walked nodes that come before `t`; ahead of the head when `t` comes before it,
   * and otherwise ahead of the first walked node that does not come before `t`.
   */
  lemma InsertSplit(s: seq<Tree>, t: Tree) returns (k: nat)
    ensures k <= |s| && Insert(s, t) == s[..k] + [t] + s[k..]
    ensures 0 < k ==> !Before(t, s[0])
    ensures forall j :: 0 < j < k ==> Before(s[j], t)
    ensures k == 0 && s != [] ==> Before(t, s[0])
    ensures 0 < k < |s| ==> !Before(s[k], t)
  {
    if s == [] || Before(t, s[0]) {
      k := 0;
    } else {
      var k' := WalkSplit(s[1..], t);
      k := k' + 1;
      assert s[..k] == [s[0]] + s[1..][..k'];
      assert s[k..] == s[1..][k'..];
    }
  }

  /** A push adds exactly `t`: the new list is a permutation of the old one and `t`. */
  lemma InsertPermutes(s: seq<Tree>, t: Tree)
    ensures |Insert(s, t)| == |s| + 1
    ensures multiset(Insert(s, t)) == multiset(s) + multiset{t}
  {
    var k := InsertSplit(s, t);
    assert s == s[..k] + s[k..];
  }

  /** A push into a list sorted by frequency leaves it sorted by frequency. */
  lemma InsertKeepsFreqSorted(s: seq<Tree>, t: Tree)
    requires FreqSorted(s)
    ensures FreqSorted(Insert(s, t))
  {
    var k := InsertSplit(s, t);
    var r := Insert(s, t);
    assert forall i :: 0 <= i < k ==> s[i].freq <= t.freq;
    assert k < |s| ==> t.freq <= s[k].freq;
    forall i, j | 0 <= i < j < |r|
      ensures r[i].freq <= r[j].freq
    {
      if j < k {
        assert r[i] == s[i] && r[j] == s[j];
      } else if j == k {
        assert r[i] == s[i] && r[j] == t;
      } else if i < k {
        assert r[i] == s[i] && r[j] == s[j - 1];
      } else if i == k {
        assert r[i] == t && r[j] == s[j - 1];
      } else {
        assert r[i] == s[i - 1] && r[j] == s[j - 1];
      }
    }
  }

  /**
   * The character tie-break: pushing a leaf into a list of leaves, or any node
   * without a character, keeps every pair of equal-frequency leaves in character order.
   */
  lemma InsertKeepsOrder(s: seq<Tree>, t: Tree)
    requires Ordered(s)
    requires t.Internal? || AllLeaves(s)
    ensures Ordered(Insert(s, t))
    ensures FreqSorted(Insert(s, t))
    ensures t.Leaf? ==> AllLeaves(Insert(s, t))
  {
    var k := InsertSplit(s, t);
    var r := Insert(s, t);
    assert forall i :: 0 <= i < |r| ==> r[i] == (if i < k then s[i] else if i == k then t else s[i - 1]);
    forall i | 0 <= i < k
      ensures !Before(t, s[i])
    {
      if 0 < i {
        BeforeAsymmetric(s[i], t);
      }
    }
    forall j | k <= j < |s|
      ensures !Before(s[j], t)
    {
      if k == 0 {
        BeforeAsymmetric(t, s[0]);
      }
      assert !Before(s[k], t);
      if k < j {
        assert !Before(s[j], s[k]);
      }
    }
    forall i, j | 0 <= i < j < |r|
      ensures !Before(r[j], r[i])
    {
      if j < k {
        assert r[i] == s[i] && r[j] == s[j];
      } else if j == k {
        assert r[i] == s[i] && r[j] == t;
      } else if i < k {
        assert r[i] == s[i] && r[j] == s[j - 1];
      } else if i == k {
        assert r[i] == t && r[j] == s[j - 1];
      } else {
        assert r[i] == s[i - 1] && r[j] == s[j - 1];
      }
    }
  }

  /** The head of a list sorted by frequency has the smallest frequency. */
  lemma HeadIsMinimum(s: seq<Tree>)
    requires FreqSorted(s) && s != []
    ensures forall x :: x in s ==> s[0].freq <= x.freq
  {
    forall x | x in s
      ensures s[0].freq <= x.freq
    {
      var j :| 0 <= j < |s| && s[j] == x;
      if 0 < j {
        assert s[0].freq <= s[j].freq;
      }
    }
  }

  /** Removing the head keeps a list sorted. */
  lemma TailSorted(s: seq<Tree>)
    requires s != []
    ensures FreqSorted(s) ==> FreqSorted(s[1..])
    ensures Ordered(s) ==> Ordered(s[1..])
  {
    if FreqSorted(s) {
      forall i, j | 0 <= i < j < |s| - 1
        ensures s[1..][i].freq <= s[1..][j].freq
      {
        assert s[1..][i] == s[i + 1] && s[1..][j] == s[j + 1];
      }
    }
    if Ordered(s) {
      forall i, j | 0 <= i < j < |s| - 1
        ensures !Before(s[1..][j], s[1..][i])
      {
        assert s[1..][i] == s[i + 1] && s[1..][j] == s[j + 1];
      }
    }
  }

  /** One element of the linked list: a tree and the link to the next element. */
  class HeapNode {
    const tree: Tree
    var next: HeapNode?

    constructor (t: Tree)
      ensures tree == t && next == null
    {
      tree := t;
      next := null;
    }
  }

  /** The trees held by a sequence of heap nodes, in order. */
  function Trees(ns: seq<HeapNode>): (r: seq<Tree>)
    ensures |r| == |ns|
    ensures forall i :: 0 <= i < |ns| ==> r[i] == ns[i].tree
  {
    seq(|ns|, i requires 0 <= i < |ns| => ns[i].tree)
  }

  lemma TreesSplice(ns: seq<HeapNode>, k: int, n: HeapNode)
    requires 0 <= k < |ns|
    ensures Trees(ns[..k + 1] + [n] + ns[k + 1..]) == Trees(ns)[..k + 1] + [n.tree] + Trees(ns)[k + 1..]
  {
    var r := ns[..k + 1] + [n] + ns[k + 1..];
    var u := Trees(ns)[..k + 1] + [n.tree] + Trees(ns)[k + 1..];
    forall i | 0 <= i < |r|
      ensures Trees(r)[i] == u[i]
    {
      if i <= k {
        assert r[i] == ns[i];
      } else if k + 1 < i {
        assert r[i] == ns[i - 1];
      }
    }
  }

  /** Node `i` links to node `i + 1`, the last node to nothing. */
  ghost predicate LinkedAt(ns: seq<HeapNode>, i: int)
    requires 0 <= i < |ns|
    reads ns[i]
  {
    ns[i].next == if i + 1 < |ns| then ns[i + 1] else null
  }

  /** `ns` is an acyclic list: distinct nodes, each linked to the one after it. */
  ghost predicate Linked(ns: seq<HeapNode>)
    reads ns
  {
    && (forall i, j :: 0 <= i < j < |ns| ==> ns[i] != ns[j])
    && (forall i :: 0 <= i < |ns| ==> LinkedAt(ns, i))
  }

  /** The rest of a list after its head is a list, and the head links to it. */
  lemma LinkedTail(ns: seq<HeapNode>)
    requires Linked(ns) && ns != []
    ensures Linked(ns[1..])
    ensures ns[0].next == if |ns| == 1 then null else ns[1]
  {
    assert LinkedAt(ns, 0);
    forall i | 0 <= i < |ns| - 1
      ensures LinkedAt(ns[1..], i)
    {
      assert LinkedAt(ns, i + 1);
    }
  }

  /** The priority queue: the list from `top`, with its length in `size`. */
  class MinHeap {
    var top: HeapNode?
    var size: int
    /** The nodes reachable from `top`, in list order. */
    ghost var nodes: seq<HeapNode>
    ghost var Repr: set<object>

    /** The list from `top` is `nodes`, sorted by frequency. */
    ghost predicate ListValid()
      reads this, Repr
    {
      && this in Repr
      && (forall i :: 0 <= i < |nodes| ==> nodes[i] in Repr)
      && Linked(nodes)
      && top == (if nodes == [] then null else nodes[0])
      && FreqSorted(Trees(nodes))
    }

    ghost predicate Valid()
      reads this, Repr
    {
      ListValid() && size == |nodes|
    }

    /** The trees in the list, head first. */
    ghost function Contents(): seq<Tree>
      reads this
    {
      Trees(nodes)
    }

    constructor ()
      ensures Valid() && fresh(Repr)
      ensures Contents() == []
    {
      top := null;
      size := 0;
      nodes := [];
      Repr := {this};
    }

    method GetSize() returns (n: int)
      requires Valid()
      ensures n == |Contents()|
    {
      n := size;
    }

    /** Links a new node holding `t` into the list, in front of the first node `t` comes before. */
    method Push(t: Tree)
      requires Valid()
      modifies Repr
      ensures Valid() && fresh(Repr - old(Repr))
      ensures Contents() == Insert(old(Contents()), t)
      ensures size == old(size) + 1
    {
      ghost var s := Contents();
      if top == null {
        top := new HeapNode(t);
        nodes := [top];
        Repr := Repr + {top};
      } else if Before(t, top.tree) {
        LinkFront(t);
      } else {
        var cur := top;
        ghost var k := 0;
        while cur.next != null && Before(cur.next.tree, t)
          invariant 0 <= k < |nodes| && cur == nodes[k]
          invariant forall j :: 0 < j <= k ==> Before(s[j], t)
          decreases |nodes| - k
        {
          assert LinkedAt(nodes, k);
          cur := cur.next;
          k := k + 1;
        }
        assert LinkedAt(nodes, k);
        InsertStopsAt(s, t, k);
        LinkAfter(cur, k, t);
      }
      size := size + 1;
    }

    /** Links a new node holding `t` in front of the head. */
    method LinkFront(t: Tree)
      requires ListValid()
      requires Contents() != [] && Before(t, Contents()[0])
      modifies this
      ensures ListValid() && fresh(Repr - old(Repr))
      ensures Contents() == Insert(old(Contents()), t)
      ensures size == old(size)
    {
      ghost var s := Contents();
      var n := new HeapNode(t);
      n.next := top;
      top := n;
      LinkedCons(n, nodes);
      nodes := [n] + nodes;
      Repr := Repr + {n};
      assert Trees(nodes) == [t] + s;
      InsertKeepsFreqSorted(s, t);
    }

    /** Links a new node holding `t` behind `cur`, the node at position `k`. */
    method LinkAfter(cur: HeapNode, ghost k: int, t: Tree)
      requires ListValid()
      requires 0 <= k < |nodes| && cur == nodes[k]
      requires Insert(Contents(), t) == Contents()[..k + 1] + [t] + Contents()[k + 1..]
      modifies Repr
      ensures ListValid() && fresh(Repr - old(Repr))
      ensures Contents() == Insert(old(Contents()), t)
      ensures size == old(size)
    {
      ghost var ns := nodes;
      assert LinkedAt(ns, k);
      OthersAreNotAt(ns, k);
      var tmp := cur.next;
      var n := new HeapNode(t);
      n.next := tmp;
      cur.next := n;
      assert forall i :: 0 <= i < |ns| && i != k ==> LinkedAt(ns, i);
      LinkedSplice(ns, k, n);
      nodes := ns[..k + 1] + [n] + ns[k + 1..];
      Repr := Repr + {n};
      TreesSplice(ns, k, n);
      InsertKeepsFreqSorted(Trees(ns), t);
    }

    /** Takes the head off the list; `None` when the list is empty. */
    method Pop() returns (r: Option<Tree>)
      requires Valid()
      modifies this
      ensures Valid() && Repr == old(Repr)
      ensures old(Contents()) == [] ==> r == None && Contents() == [] && size == old(size)
      ensures old(Contents()) != [] ==>
                r == Some(old(Contents())[0]) && Contents() == old(Contents())[1..] && size == old(size) - 1
      ensures r.Some? ==> forall x :: x in old(Contents()) ==> r.value.freq <= x.freq
    {
      if top == null {
        return None;
      }
      ghost var s := Contents();
      HeadIsMinimum(s);
      TailSorted(s);
      LinkedTail(nodes);
      r := Some(top.tree);
      top := top.next;
      size := size - 1;
      nodes := nodes[1..];
      assert Trees(nodes) == s[1..];
    }
  }

  /** A fresh node linked to the head of a list makes a longer list. */
  lemma LinkedCons(n: HeapNode, ns: seq<HeapNode>)
    requires Linked(ns) && n !in ns
    requires n.next == if ns == [] then null else ns[0]
    ensures Linked([n] + ns)
  {
    var ns' := [n] + ns;
    forall i | 0 <= i < |ns'|
      ensures LinkedAt(ns', i)
    {
      if 0 < i {
        assert LinkedAt(ns, i - 1);
      }
    }
  }

  /** In a list, no node other than node `k` is node `k`. */
  lemma OthersAreNotAt(ns: seq<HeapNode>, k: int)
    requires Linked(ns) && 0 <= k < |ns|
    ensures forall i :: 0 <= i < |ns| && i != k ==> ns[i] != ns[k]
  {
    forall i | 0 <= i < |ns| && i != k
      ensures ns[i] != ns[k]
    {
      if i < k { assert ns[i] != ns[k]; } else { assert ns[k] != ns[i]; }
    }
  }

  /**
   * Splicing `n` in behind node `k`: when node `k` links to `n`, `n` to the node
   * that followed node `k`, and every other node still to its successor, the
   * nodes with `n` spliced in form a list.
   */
  lemma LinkedSplice(ns: seq<HeapNode>, k: int, n: HeapNode)
    requires 0 <= k < |ns| && n !in ns
    requires forall i, j :: 0 <= i < j < |ns| ==> ns[i] != ns[j]
    requires forall i :: 0 <= i < |ns| && i != k ==> LinkedAt(ns, i)
    requires ns[k].next == n
    requires n.next == if k + 1 < |ns| then ns[k + 1] else null
    ensures Linked(ns[..k + 1] + [n] + ns[k + 1..])
  {
    var r := ns[..k + 1] + [n] + ns[k + 1..];
    forall i, j | 0 <= i < j < |r|
      ensures r[i] != r[j]
    {
      if j <= k {
        assert r[i] == ns[i] && r[j] == ns[j];
      } else if j == k + 1 {
        assert r[i] == ns[i] && r[j] == n;
      } else if i <= k {
        assert r[i] == ns[i] && r[j] == ns[j - 1];
      } else if i == k + 1 {
        assert r[i] == n && r[j] == ns[j - 1];
      } else {
        assert r[i] == ns[i - 1] && r[j] == ns[j - 1];
      }
    }
    forall i | 0 <= i < |r|
      ensures LinkedAt(r, i)
    {
      if i < k {
        assert LinkedAt(ns, i);
        assert r[i] == ns[i] && r[i + 1] == ns[i + 1];
      } else if i == k {
        assert r[i] == ns[k] && r[i + 1] == n;
      } else if i == k + 1 {
        assert r[i] == n;
        if k + 1 < |ns| { assert r[i + 1] == ns[k + 1]; }
      } else {
        assert LinkedAt(ns, i - 1);
        assert r[i] == ns[i - 1];
        if i + 1 < |r| { assert r[i + 1] == ns[i]; }
      }
    }
  }
}

=== FILE: route_cost.dfy ===
/**
 * Distances, the heuristic estimate and the path cost of the A* route planner.
 * Intersections are identified by integer ids; the map collaborator gives each id a
 * point and a list of neighbouring ids.  The Euclidean distance needs a square root,
 * so it is a parameter `euclid` of every member that uses it: any non-negative
 * function of two points.
 */
module RouteCost {
  import opened Wrappers

  type Id = int

  datatype Point = Point(x: real, y: real)

  /** A cost or a distance: a non-negative real. */
  type NonNeg = r: real | 0.0 <= r

  /** The map: `intersections` gives each id its point, `roads` its neighbours. */
  datatype Map = Map(intersections: map<Id, Point>, roads: map<Id, seq<Id>>)

  /** Every id has a point and a road list, and every road leads to a known id. */
  predicate WellFormed(m: Map) {
    && m.roads.Keys == m.intersections.Keys
    && forall a, j :: a in m.roads && 0 <= j < |m.roads[a]| ==> m.roads[a][j] in m.intersections
  }

  /** The factor the path cost applies to the estimate from the frontier to the goal. */
  const GoalFactor: real := 0.85

  function Abs(r: real): real {
    if r < 0.0 then -r else r
  }

  /** `|x1 - x2| + |y1 - y2|` */
  function ManhattanDistance(p: Point, q: Point): (d: real)
    ensures 0.0 <= d
    ensures d == 0.0 <==> p == q
  {
    Abs(p.x - q.x) + Abs(p.y - q.y)
  }

  lemma ManhattanSymmetric(p: Point, q: Point)
    ensures ManhattanDistance(p, q) == ManhattanDistance(q, p)
  {
  }

  lemma ManhattanTriangle(p: Point, q: Point, s: Point)
    ensures ManhattanDistance(p, s) <= ManhattanDistance(p, q) + ManhattanDistance(q, s)
  {
  }

  /**
   * The heuristic estimate: the chosen distance scaled by `mu`, for the heuristics
   * "euclidean" and "manhattan"; any other name gives no estimate.
   */
  function HCost(p: Point, q: Point, heuristic: string, mu: real, euclid: (Point, Point) -> NonNeg): (r: Option<real>)
    ensures r.Some? <==> heuristic == "euclidean" || heuristic == "manhattan"
    ensures r.Some? && 0.0 <= mu ==> 0.0 <= r.value
    ensures heuristic == "euclidean" && 0.0 <= mu <= 1.0 ==> r.value <= euclid(p, q)
    ensures heuristic == "manhattan" && 0.0 <= mu <= 1.0 ==> r.value <= ManhattanDistance(p, q)
  {
    if heuristic == "euclidean" then Some(Scale(euclid(p, q), mu))
    else if heuristic == "manhattan" then Some(Scale(ManhattanDistance(p, q), mu))
    else None
  }

  /** A distance scaled by a factor: between 0 and the distance when the factor is in [0, 1]. */
  function Scale(d: real, mu: real): (s: real)
    requires 0.0 <= d
    ensures 0.0 <= mu ==> 0.0 <= s
    ensures mu <= 1.0 ==> s <= d
  {
    d * mu
  }

  /** Every id of `path` has a point. */
  predicate Located(points: map<Id, Point>, path: seq<Id>) {
    forall i :: 0 <= i < |path| ==> path[i] in points
  }

  /** The length of `path`: the distances between consecutive ids, summed. */
  function PathDistance(points: map<Id, Point>, path: seq<Id>, euclid: (Point, Point) -> NonNeg): (d: real)
    requires Located(points, path)
    ensures 0.0 <= d
    decreases |path|
  {
    if |path| <= 1 then 0.0
    else euclid(points[path[0]], points[path[1]]) + PathDistance(points, path[1..], euclid)
  }

  /**
   * The estimated total cost of `path`: its length plus the estimate from its last id
   * to `goal`, the Euclidean distance scaled by `GoalFactor` (what `HCost` gives for
   * "euclidean").
   */
  function TotalCost(points: map<Id, Point>, path: seq<Id>, goal: Id, euclid: (Point, Point) -> NonNeg): real
    requires path != [] && Located(points, path) && goal in points
  {
    PathDistance(points, path, euclid) + Scale(euclid(points[path[|path| - 1]], points[goal]), GoalFactor)
  }

  /** The length of two joined paths is their lengths plus the step that joins them. */
  lemma {:induction false} PathDistanceAppend(points: map<Id, Point>, p: seq<Id>, q: seq<Id>, euclid: (Point, Point) -> NonNeg)
    requires p != [] && q != [] && Located(points, p) && Located(points, q)
    ensures Located(points, p + q)
    ensures PathDistance(points, p + q, euclid)
         == PathDistance(points, p, euclid) + euclid(points[p[|p| - 1]], points[q[0]]) + PathDistance(points, q, euclid)
    decreases |p|
  {
    var pq := p + q;
    assert Located(points, pq) by {
      forall i | 0 <= i < |pq| ensures pq[i] in points {
        if i < |p| { assert pq[i] == p[i]; } else { assert pq[i] == q[i - |p|]; }
      }
    }
    if |p| == 1 {
      assert pq[1..] == q;
    } else {
      var p' := p[1..];
      assert pq[1..] == p' + q;
      assert Located(points, p');
      PathDistanceAppend(points, p', q, euclid);
      assert p'[|p'| - 1] == p[|p| - 1];
    }
  }

  /** One element path: the total cost is the estimate alone. */
  lemma TotalCostOfStart(points: map<Id, Point>, start: Id, goal: Id, euclid: (Point, Point) -> NonNeg)
    requires start in points && goal in points
    ensures TotalCost(points, [start], goal, euclid) == GoalFactor * euclid(points[start], points[goal])
  {
  }

  /**
   * Admissibility: when `euclid` obeys the triangle inequality and `mu` is at most 1,
   * the scaled estimate between the two ends of a path never exceeds its length.
   */
  lemma {:induction false} EstimateAdmissible(points: map<Id, Point>, path: seq<Id>, mu: real, euclid: (Point, Point) -> NonNeg)
    requires path != [] && Located(points, path)
    requires 0.0 <= mu <= 1.0
    requires forall a :: euclid(a, a) == 0.0
    requires forall a, b, c :: euclid(a, c) <= euclid(a, b) + euclid(b, c)
    ensures HCost(points[path[0]], points[path[|path| - 1]], "euclidean", mu, euclid).value
         <= PathDistance(points, path, euclid)
    decreases |path|
  {
    if |path| == 1 {
      assert euclid(points[path[0]], points[path[0]]) == 0.0;
    } else {
      var rest := path[1..];
      assert Located(points, rest);
      EstimateAdmissible(points, rest, 1.0, euclid);
      var a, b, c := points[path[0]], points[path[1]], points[path[|path| - 1]];
      assert euclid(a, c) <= euclid(a, b) + euclid(b, c);
    }
  }

  /**
   * The cost of a path, accumulated edge by edge as the planner does, plus the
   * estimate from its last id to the goal.
   */
  method CalcTotalCost(points: map<Id, Point>, path: seq<Id>, goal: Id, euclid: (Point, Point) -> NonNeg) returns (cost: real)
    requires path != [] && Located(points, path) && goal in points
    ensures cost == TotalCost(points, path, goal, euclid)
  {
    var pathCost := 0.0;
    for i := 0 to |path| - 1
      invariant Located(points, path[..i + 1])
      invariant pathCost == PathDistance(points, path[..i + 1], euclid)
    {
      assert path[..i + 2] == path[..i + 1] + [path[i + 1]];
      PathDistanceAppend(points, path[..i + 1], [path[i + 1]], euclid);
      pathCost := pathCost + euclid(points[path[i]], points[path[i + 1]]);
    }
    assert path[..|path|] == path;
    var frontier := path[|path| - 1];
    var hCost := HCost(points[frontier], points[goal], "euclidean", GoalFactor, euclid);
    cost := hCost.value + pathCost;
  }
}

=== FILE: route_heap.dfy ===
/**
 * The planner's priority queue: a binary heap kept in an array of slots that starts
 * with 100 slots and doubles when full.  Push sifts the new node up along the parent
 * chain `i / 2`; pop moves the last node to slot 0 and sifts it down along the
 * children `2 i + 1` and `2 i + 2`.  The two halves follow different trees, so the
 * model promises only what holds: push keeps the `i / 2` order, both operations keep
 * the occupied slots as a permutation of the nodes they hold.
 */
module RouteHeap {
  import opened Wrappers
  import opened RouteCost

  /** A candidate path with its estimated total cost. */
  datatype Node = Node(path: seq<Id>, cost: real)

  const InitialCapacity: nat := 100

  /** The cost of an occupied slot; an empty slot is never compared. */
  function Cost(slot: Option<Node>): real {
    if slot.Some? then slot.value.cost else 0.0
  }

  /** Slot `i / 2` costs no more than slot `i`. */
  ghost predicate ParentLe(s: seq<Option<Node>>, i: nat)
    requires i < |s|
  {
    Cost(s[i / 2]) <= Cost(s[i])
  }

  /** The order push keeps: every slot costs at least as much as its parent `i / 2`. */
  ghost predicate ParentOrdered(s: seq<Option<Node>>) {
    forall i :: 0 < i < |s| ==> ParentLe(s, i)
  }

  /** The parent of slot `i`: strictly earlier for every slot but 0, so sift-up ends. */
  function Parent(i: nat): (p: nat)
    ensures p <= i
    ensures 0 < i ==> p < i
  {
    i / 2
  }

  /** In a parent-ordered sequence, slot 0 holds a node of minimum cost. */
  lemma {:induction false} RootIsMinimum(s: seq<Option<Node>>, i: nat)
    requires ParentOrdered(s) && i < |s|
    ensures Cost(s[0]) <= Cost(s[i])
    decreases i
  {
    if 0 < i {
      assert ParentLe(s, i);
      RootIsMinimum(s, Parent(i));
    }
  }

  /** Exchanging two slots below `n` keeps the multiset of the first `n` slots. */
  lemma SwapKeepsSlots<T>(s: seq<T>, i: nat, j: nat, n: nat)
    requires i < n && j < n && n <= |s|
    ensures multiset(s[i := s[j]][j := s[i]][..n]) == multiset(s[..n])
  {
    var t := s[i := s[j]][j := s[i]];
    assert t[..n] == s[..n][i := s[j]][j := s[i]];
  }

  /**
   * During sift-up of the node at `cur` among slots `0..last`: every slot but `cur`
   * is ordered against its parent, and `cur`'s parent is ordered against `cur`'s children.
   */
  ghost predicate SiftUpInv(s: seq<Option<Node>>, last: nat, cur: nat)
    requires last < |s|
  {
    && (forall i :: 0 < i <= last && i != cur ==> ParentLe(s, i))
    && (0 < cur ==> forall i :: 0 < i <= last && i / 2 == cur ==> Cost(s[cur / 2]) <= Cost(s[i]))
  }

  lemma SiftUpStart(s: seq<Option<Node>>, last: nat)
    requires last < |s| && ParentOrdered(s[..last])
    ensures SiftUpInv(s, last, last)
  {
    forall i | 0 < i < last ensures ParentLe(s, i) {
      assert ParentLe(s[..last], i);
    }
  }

  lemma SiftUpStep(s: seq<Option<Node>>, last: nat, cur: nat)
    requires 0 < cur <= last < |s| && SiftUpInv(s, last, cur)
    requires Cost(s[cur]) < Cost(s[cur / 2])
    ensures SiftUpInv(s[cur / 2 := s[cur]][cur := s[cur / 2]], last, cur / 2)
  {
    var p := cur / 2;
    var t := s[p := s[cur]][cur := s[p]];
    forall i | 0 < i <= last && i != p ensures ParentLe(t, i) {
      if i == cur {
      } else if i / 2 == cur {
        assert Cost(s[p]) <= Cost(s[i]);
      } else if i / 2 == p {
        assert ParentLe(s, i);
      } else {
        assert ParentLe(s, i);
      }
    }
    if 0 < p {
      forall i | 0 < i <= last && i / 2 == p ensures Cost(t[p / 2]) <= Cost(t[i]) {
        assert ParentLe(s, p);
        if i != cur {
          assert ParentLe(s, i);
        }
      }
    }
  }

  lemma SiftUpDone(s: seq<Option<Node>>, last: nat, cur: nat)
    requires cur <= last < |s| && SiftUpInv(s, last, cur)
    requires cur == 0 || Cost(s[cur / 2]) <= Cost(s[cur])
    ensures ParentOrdered(s[..last + 1])
  {
    var t := s[..last + 1];
    forall i | 0 < i < |t| ensures ParentLe(t, i) {
      assert t[i] == s[i] && t[i / 2] == s[i / 2];
      if i != cur {
        assert ParentLe(s, i);
      }
    }
  }

  /** The first `n` slots are occupied and the rest are empty. */
  ghost predicate Occupied(s: seq<Option<Node>>, n: nat) {
    && n <= |s|
    && (forall i :: 0 <= i < n ==> s[i].Some?)
    && (forall i :: n <= i < |s| ==> s[i] == None)
  }

  lemma SwapKeepsOccupied(s: seq<Option<Node>>, i: nat, j: nat, n: nat)
    requires i < n && j < n && Occupied(s, n)
    ensures Occupied(s[i := s[j]][j := s[i]], n)
  {
  }

  /** Writing an occupied slot into the first empty one extends the occupied prefix by it. */
  lemma PlaceLast(s: seq<Option<Node>>, n: nat, slot: Option<Node>)
    requires Occupied(s, n) && n < |s| && slot.Some?
    ensures Occupied(s[n := slot], n + 1)
    ensures s[n := slot][..n] == s[..n]
    ensures multiset(s[n := slot][..n + 1]) == multiset(s[..n]) + multiset{slot}
  {
    assert s[n := slot][..n + 1] == s[..n] + [slot];
  }

  /** Moving the last occupied slot into slot 0 and emptying it loses exactly slot 0. */
  lemma TakeRoot(s: seq<Option<Node>>, last: nat)
    requires Occupied(s, last + 1)
    ensures Occupied(s[0 := s[last]][last := None], last)
    ensures multiset(s[0 := s[last]][last := None][..last]) + multiset{s[0]} == multiset(s[..last + 1])
  {
    var t := s[0 := s[last]][last := None];
    if last > 0 {
      assert s[..last + 1] == [s[0]] + s[1..last] + [s[last]];
      assert t[..last] == [s[last]] + s[1..last];
    }
  }

  class MinHeap {
    var data: array<Option<Node>>
    var next: nat
    var size: nat

    /** `next` and `size` agree, the first `size` slots are occupied and the rest empty. */
    ghost predicate Valid()
      reads this, data
    {
      && next == size
      && InitialCapacity <= data.Length
      && Occupied(data[..], size)
    }

    constructor ()
      ensures Valid() && fresh(data)
      ensures size == 0 && data.Length == InitialCapacity
    {
      data := new Option<Node>[InitialCapacity](_ => None);
      next, size := 0, 0;
    }

    /** The number of occupied slots; zero exactly when every slot is empty. */
    method GetSize() returns (n: nat)
      requires Valid()
      ensures n == size
      ensures n == 0 <==> forall i :: 0 <= i < data.Length ==> data[i] == None
    {
      assert 0 < size ==> data[..][0].Some?;
      assert forall i :: 0 <= i < data.Length ==> data[i] == data[..][i];
      n := size;
    }

    /** Doubles the array; every slot keeps its contents and the new slots are empty. */
    method Resize()
      requires Valid()
      modifies this
      ensures Valid() && fresh(data)
      ensures next == old(next) && size == old(size)
      ensures data.Length == 2 * old(data.Length)
      ensures data[..old(data.Length)] == old(data[..])
      ensures forall i :: old(data.Length) <= i < data.Length ==> data[i] == None
    {
      var tmp := new Option<Node>[data.Length * 2](_ => None);
      for i := 0 to data.Length
        modifies tmp
        invariant tmp[..i] == data[..i]
        invariant forall j :: i <= j < tmp.Length ==> tmp[j] == None
      {
        tmp[i] := data[i];
      }
      data := tmp;
    }

    /**
     * Adds `node`: the occupied slots gain exactly `node`, the array doubles when it
     * was full, and a parent-ordered heap stays parent-ordered.
     */
    method Push(node: Node)
      requires Valid()
      modifies this, data
      ensures Valid()
      ensures size == old(size) + 1
      ensures multiset(data[..size]) == multiset(old(data[..size])) + multiset{Some(node)}
      ensures old(size) < old(data.Length) ==> data == old(data)
      ensures old(size) == old(data.Length) ==> fresh(data) && data.Length == 2 * old(data.Length)
      ensures ParentOrdered(old(data[..size])) ==> ParentOrdered(data[..size])
    {
      ghost var oldSlots := data[..size];
      ghost var oldLength := data.Length;
      if next >= data.Length {
        Resize();
        assert data[..size] == data[..oldLength][..size];
      }
      assert data[..size] == oldSlots;
      Append(data, next, node);
      next := next + 1;
      size := size + 1;
    }

    /**
     * Removes the node in slot 0: on an empty heap returns `None` and changes nothing;
     * otherwise returns the old slot 0 and the occupied slots lose exactly that node.
     */
    method Pop() returns (r: Option<Node>)
      requires Valid()
      modifies this, data
      ensures Valid() && data == old(data)
      ensures old(size) == 0 ==> r == None && size == 0 && data[..] == old(data[..])
      ensures old(size) > 0 ==> r.Some? && r == old(data[0]) && size == old(size) - 1
      ensures multiset(old(data[..size])) == multiset(data[..size]) + (if r.Some? then multiset{r} else multiset{})
      ensures ParentOrdered(old(data[..size])) ==> forall i :: 0 <= i < old(size) ==> Cost(r) <= Cost(old(data[i]))
    {
      if size == 0 {
        return None;
      }
      ghost var s := data[..];
      forall i | 0 <= i < size && ParentOrdered(s[..size]) ensures Cost(s[0]) <= Cost(s[i]) {
        RootIsMinimum(s[..size], i);
      }
      var last := size - 1;
      r := data[0];
      data[0] := data[last];
      data[last] := None;
      assert data[..] == s[0 := s[last]][last := None];
      TakeRoot(s, last);
      SiftDown(data, last);
      ghost var after := data[..last];
      next := next - 1;
      size := size - 1;
      assert data[..size] == after;
    }
  }

  /**
   * Writes `node` into the first free slot `n` and sifts it up: the occupied slots
   * gain exactly that node, and parent order over them is kept.
   */
  method Append(a: array<Option<Node>>, n: nat, node: Node)
    requires n < a.Length && Occupied(a[..], n)
    modifies a
    ensures Occupied(a[..], n + 1)
    ensures multiset(a[..n + 1]) == multiset(old(a[..n])) + multiset{Some(node)}
    ensures ParentOrdered(old(a[..n])) ==> ParentOrdered(a[..n + 1])
  {
    ghost var s := a[..];
    a[n] := Some(node);
    assert a[..] == s[n := Some(node)];
    PlaceLast(s, n, Some(node));
    assert a[..n] == s[..n];
    SiftUp(a, n);
  }

  /**
   * Moves the node in slot `last` towards slot 0 while its parent (slot `last / 2`)
   * costs strictly more.  The first `last + 1` slots keep their multiset, and if the
   * slots before `last` were parent-ordered, all `last + 1` of them are afterwards.
   */
  method SiftUp(a: array<Option<Node>>, last: nat)
    requires last < a.Length && Occupied(a[..], last + 1)
    modifies a
    ensures Occupied(a[..], last + 1)
    ensures multiset(a[..last + 1]) == multiset(old(a[..last + 1]))
    ensures ParentOrdered(old(a[..last])) ==> ParentOrdered(a[..last + 1])
  {
    ghost var ordered := ParentOrdered(a[..last]);
    if ordered {
      SiftUpStart(a[..], last);
    }
    var cur := last;
    while cur > 0
      invariant cur <= last
      invariant Occupied(a[..], last + 1)
      invariant multiset(a[..last + 1]) == multiset(old(a[..last + 1]))
      invariant ordered ==> SiftUpInv(a[..], last, cur)
    {
      var parent := Parent(cur);
      if a[cur].value.cost < a[parent].value.cost {
        SwapWithParent(a, last, cur, ordered);
        cur := parent;
      } else {
        break;
      }
    }
    if ordered {
      SiftUpDone(a[..], last, cur);
      assert a[..][..last + 1] == a[..last + 1];
    }
  }

  /** One sift-up step: swaps slot `cur` with its parent, which costs strictly more. */
  method SwapWithParent(a: array<Option<Node>>, last: nat, cur: nat, ghost ordered: bool)
    requires 0 < cur <= last < a.Length && Occupied(a[..], last + 1)
    requires Cost(a[cur]) < Cost(a[cur / 2])
    requires ordered ==> SiftUpInv(a[..], last, cur)
    modifies a
    ensures Occupied(a[..], last + 1)
    ensures multiset(a[..last + 1]) == multiset(old(a[..last + 1]))
    ensures ordered ==> SiftUpInv(a[..], last, cur / 2)
  {
    ghost var s := a[..];
    var parent := cur / 2;
    if ordered {
      SiftUpStep(s, last, cur);
    }
    SwapKeepsSlots(s, parent, cur, last + 1);
    SwapKeepsOccupied(s, parent, cur, last + 1);
    a[parent], a[cur] := a[cur], a[parent];
    assert a[..] == s[parent := s[cur]][cur := s[parent]];
    assert a[..last + 1] == a[..][..last + 1];
    assert old(a[..last + 1]) == s[..last + 1];
  }

  /**
   * Sift-down of slot 0 among the occupied slots `0..last - 1`: at each step takes the
   * left child `2 i + 1`, or the right child `2 i + 2` when both are occupied and the
   * right one costs strictly less, and swaps while that child costs strictly less.
   * The occupied slots keep their multiset.
   */
  method SiftDown(a: array<Option<Node>>, last: nat)
    requires Occupied(a[..], last)
    modifies a
    ensures Occupied(a[..], last)
    ensures multiset(a[..last]) == multiset(old(a[..last]))
  {
    var cur := 0;
    while cur < a.Length
      invariant cur == 0 || cur < last
      invariant Occupied(a[..], last)
      invariant multiset(a[..last]) == multiset(old(a[..last]))
      decreases a.Length - cur
    {
      var left := if 2 * cur + 1 < a.Length then 2 * cur + 1 else -1;
      var right := if 2 * cur + 2 < a.Length then 2 * cur + 2 else -1;
      var child := left;
      if left != -1 && right != -1 {
        if a[left].Some? && a[right].Some? {
          if a[right].value.cost < a[left].value.cost {
            child := right;
          }
        }
      }
      if child == -1 {
        break;
      }
      if a[child].None? {
        break;
      }
      assert child < last && a[cur].Some?;
      if a[child].value.cost < a[cur].value.cost {
        ghost var s := a[..];
        SwapKeepsSlots(s, child, cur, last);
        SwapKeepsOccupied(s, child, cur, last);
        a[child], a[cur] := a[cur], a[child];
        assert a[..] == s[child := s[cur]][cur := s[child]];
        cur := child;
      } else {
        break;
      }
    }
  }
}

=== FILE: route_search.dfy ===
/**
 * The A* route planner's search: a best-first expansion over whole paths.  The heap
 * starts with the one-id path `[start]`; each round pops a path, pushes every
 * extension of it by a neighbour that the path does not already visit, and stops once
 * the popped path ends at the goal.  The result is the last popped path.
 *
 * Proved here: every pushed path is a simple route from `start` whose node carries its
 * total cost; the search terminates (the heap's weight sum shrinks every round); and
 * the result ends at the goal exactly when some route from `start` reaches it.
 */
module RoutePlanner {
  import opened Wrappers
  import opened RouteCost
  import opened RouteHeap

  function Last(p: seq<Id>): Id
    requires p != []
  {
    p[|p| - 1]
  }

  /** No id occurs twice in `p`. */
  predicate Simple(p: seq<Id>) {
    forall i, j :: 0 <= i < j < |p| ==> p[i] != p[j]
  }

  /** The `i`-th id of `p` is reached by a road from the one before it. */
  predicate RoadStep(m: Map, p: seq<Id>, i: nat)
    requires 0 < i < |p|
  {
    p[i - 1] in m.roads && p[i] in m.roads[p[i - 1]]
  }

  /** `p` starts at `start`, visits located ids without repeating one, and each step follows a road. */
  predicate IsRoute(m: Map, start: Id, p: seq<Id>) {
    && p != []
    && p[0] == start
    && Simple(p)
    && Located(m.intersections, p)
    && forall i :: 0 < i < |p| ==> RoadStep(m, p, i)
  }

  /** Some route from `start` ends at `goal`. */
  ghost predicate Reachable(m: Map, start: Id, goal: Id) {
    exists p :: IsRoute(m, start, p) && Last(p) == goal
  }

  /** `nb` is a road from the last id of `p` to an id that `p` does not visit yet. */
  predicate Step(m: Map, p: seq<Id>, nb: Id) {
    p != [] && Last(p) in m.roads && nb in m.roads[Last(p)] && nb !in p
  }

  /** The heap node the planner builds for path `p`: the path with its total cost. */
  function NodeOf(m: Map, goal: Id, euclid: (Point, Point) -> NonNeg, p: seq<Id>): Option<Node>
    requires p != [] && Located(m.intersections, p) && goal in m.intersections
  {
    Some(Node(p, TotalCost(m.intersections, p, goal, euclid)))
  }

  /**
   * The nodes an expansion of `path` pushes for the first `k` roads of `nbs`, taken in
   * order: the node of `path + [nb]` for each such `nb` that is not already on `path`.
   */
  function StepNodes(m: Map, goal: Id, euclid: (Point, Point) -> NonNeg, path: seq<Id>, nbs: seq<Id>, k: nat): multiset<Option<Node>>
    requires path != [] && Located(m.intersections, path) && goal in m.intersections && k <= |nbs|
  {
    if k == 0 then multiset{}
    else StepNodes(m, goal, euclid, path, nbs, k - 1) + StepNode(m, goal, euclid, path, nbs[k - 1])
  }

  /** The node an expansion of `path` pushes for the road to `nb`: none when `nb` is on `path`. */
  function StepNode(m: Map, goal: Id, euclid: (Point, Point) -> NonNeg, path: seq<Id>, nb: Id): multiset<Option<Node>>
    requires path != [] && Located(m.intersections, path) && goal in m.intersections
  {
    if nb in path || nb !in m.intersections then multiset{}
    else
      assert Located(m.intersections, path + [nb]);
      multiset{NodeOf(m, goal, euclid, path + [nb])}
  }

  /**
   * The paths an expansion of `path` sees for the first `k` roads of `nbs`: `path + [nb]`
   * for each such `nb` that is not already on `path`.
   */
  ghost function StepPaths(m: Map, path: seq<Id>, nbs: seq<Id>, k: nat): set<seq<Id>>
    requires k <= |nbs|
  {
    if k == 0 then {}
    else if nbs[k - 1] in path || nbs[k - 1] !in m.intersections then StepPaths(m, path, nbs, k - 1)
    else StepPaths(m, path, nbs, k - 1) + {path + [nbs[k - 1]]}
  }

  /** A route extended by a step is a route. */
  lemma StepExtends(m: Map, start: Id, p: seq<Id>, nb: Id)
    requires WellFormed(m) && IsRoute(m, start, p) && Step(m, p, nb)
    ensures IsRoute(m, start, p + [nb])
  {
    var q := p + [nb];
    forall i | 0 < i < |q| ensures RoadStep(m, q, i) {
      if i < |p| {
        assert RoadStep(m, p, i);
      }
    }
  }

  /** A simple sequence of ids drawn from `keys` is no longer than `keys` is large. */
  lemma {:induction false} SimpleBound(p: seq<Id>, keys: set<Id>)
    requires Simple(p) && forall i :: 0 <= i < |p| ==> p[i] in keys
    ensures |p| <= |keys|
    decreases |p|
  {
    if p != [] {
      var x := Last(p);
      var q := p[..|p| - 1];
      forall i | 0 <= i < |q| ensures q[i] in keys - {x} {
        assert q[i] == p[i];
      }
      SimpleBound(q, keys - {x});
    }
  }

  /** Every finite road table has a bound on the number of roads leaving one of the given ids. */
  lemma DegreeBound(roads: map<Id, seq<Id>>, keys: set<Id>) returns (d: nat)
    requires keys <= roads.Keys
    ensures forall a :: a in keys ==> |roads[a]| <= d
    decreases keys
  {
    if forall k :: k !in keys {
      d := 0;
    } else {
      var k :| k in keys;
      var d' := DegreeBound(roads, keys - {k});
      d := if |roads[k]| > d' then |roads[k]| else d';
    }
  }

  // ---- The termination measure ----

  function Pow(b: nat, e: nat): (r: nat)
    ensures 0 < b ==> 0 < r
  {
    if e == 0 then 1 else b * Pow(b, e - 1)
  }

  /**
   * The weight of a heap slot holding a path of `k <= n` ids: `(d + 1)^(n - k)`.
   * Replacing one path by at most `d` paths one id longer lowers the total weight.
   */
  ghost function Weight(n: nat, d: nat, slot: Option<Node>): nat {
    if slot.Some? && |slot.value.path| <= n then Pow(d + 1, n - |slot.value.path|) else 0
  }

  ghost function Sum(n: nat, d: nat, s: seq<Option<Node>>): nat
    decreases |s|
  {
    if s == [] then 0 else Weight(n, d, s[0]) + Sum(n, d, s[1..])
  }

  lemma {:induction false} SumAppend(n: nat, d: nat, s: seq<Option<Node>>, t: seq<Option<Node>>)
    ensures Sum(n, d, s + t) == Sum(n, d, s) + Sum(n, d, t)
    decreases |s|
  {
    if s != [] {
      assert (s + t)[1..] == s[1..] + t;
      SumAppend(n, d, s[1..], t);
    } else {
      assert s + t == t;
    }
  }

  /** Taking slot `j` out of a sequence takes its weight out of the sum. */
  lemma SumRemove(n: nat, d: nat, t: seq<Option<Node>>, j: nat)
    requires j < |t|
    ensures Sum(n, d, t) == Weight(n, d, t[j]) + Sum(n, d, t[..j] + t[j + 1..])
  {
    var tail := t[j..];
    assert t == t[..j] + tail;
    assert tail[1..] == t[j + 1..];
    SumAppend(n, d, t[..j], tail);
    SumAppend(n, d, t[..j], t[j + 1..]);
  }

  lemma RemoveOne<T>(t: seq<T>, j: nat)
    requires j < |t|
    ensures multiset(t) == multiset(t[..j] + t[j + 1..]) + multiset{t[j]}
  {
    assert t == t[..j] + [t[j]] + t[j + 1..];
  }

  lemma Cancel<T>(a: multiset<T>, b: multiset<T>, x: T)
    requires a + multiset{x} == b + multiset{x}
    ensures a == b
  {
    assert a == a + multiset{x} - multiset{x};
    assert b == b + multiset{x} - multiset{x};
  }

  /** The weight sum depends only on the multiset of slots. */
  lemma {:induction false} SumPermutation(n: nat, d: nat, s: seq<Option<Node>>, t: seq<Option<Node>>)
    requires multiset(s) == multiset(t)
    ensures Sum(n, d, s) == Sum(n, d, t)
    decreases |s|
  {
    if s == [] {
      assert |t| == |multiset(t)| == 0;
    } else {
      var x := s[0];
      assert x in multiset(t);
      var j :| 0 <= j < |t| && t[j] == x;
      var rest := t[..j] + t[j + 1..];
      RemoveOne(t, j);
      RemoveOne(s, 0);
      assert s[..0] + s[1..] == s[1..];
      Cancel(multiset(s[1..]), multiset(rest), x);
      SumPermutation(n, d, s[1..], rest);
      SumRemove(n, d, t, j);
    }
  }

  /** Adding one slot to the multiset adds its weight to the sum. */
  lemma SumAdd(n: nat, d: nat, s: seq<Option<Node>>, t: seq<Option<Node>>, x: Option<Node>)
    requires multiset(t) == multiset(s) + multiset{x}
    ensures Sum(n, d, t) == Sum(n, d, s) + Weight(n, d, x)
  {
    SumPermutation(n, d, t, s + [x]);
    SumAppend(n, d, s, [x]);
    assert [x][1..] == [];
  }

  /** The weight of a node whose path extends a path of `k` ids by one. */
  ghost function ExtensionWeight(n: nat, d: nat, k: nat): nat {
    if k < n then Pow(d + 1, n - k - 1) else 0
  }

  lemma WeightOfExtension(n: nat, d: nat, k: nat, slot: Option<Node>)
    requires slot.Some? && |slot.value.path| == k + 1 <= n
    ensures Weight(n, d, slot) == ExtensionWeight(n, d, k)
  {
  }

  /** At most `d` extensions of a path of `k <= n` ids weigh less than the path itself. */
  /** `k` copies of `e`, added one at a time. */
  function Times(k: nat, e: nat): nat {
    if k == 0 then 0 else Times(k - 1, e) + e
  }

  lemma {:induction false} TimesIsProduct(k: nat, e: nat)
    ensures Times(k, e) == k * e
  {
    if k > 0 {
      TimesIsProduct(k - 1, e);
    }
  }

  lemma ExtensionsLighter(n: nat, d: nat, k: nat, j: nat)
    requires k <= n && j <= d
    ensures j * ExtensionWeight(n, d, k) < Pow(d + 1, n - k)
  {
    if k < n {
      var w := Pow(d + 1, n - k - 1);
      assert Pow(d + 1, n - k) == (d + 1) * w;
      assert j * w <= d * w;
    }
  }

  // ---- The search invariants ----

  /**
   * The search state: every heap slot holds the node of a seen path; every seen path
   * is a route from `start` that is still queued or already expanded; no expanded
   * path ends at the goal.
   */
  ghost predicate Covered(m: Map, start: Id, goal: Id, euclid: (Point, Point) -> NonNeg,
                          seen: set<seq<Id>>, expanded: set<seq<Id>>, queued: multiset<Option<Node>>)
    requires goal in m.intersections
  {
    && [start] in seen
    && (forall x :: x in queued ==> x.Some? && x.value.path in seen)
    && (forall p :: p in seen ==> IsRoute(m, start, p))
    && (forall x :: x in queued ==> x == NodeOf(m, goal, euclid, x.value.path))
    && (forall p :: p in seen ==> p in expanded || NodeOf(m, goal, euclid, p) in queued)
    && (forall p :: p in expanded ==> p in seen && p != [] && Last(p) != goal)
  }

  /** Every step from an expanded path has been seen. */
  ghost predicate Closed(m: Map, seen: set<seq<Id>>, expanded: set<seq<Id>>) {
    forall p, nb :: p in expanded && Step(m, p, nb) ==> p + [nb] in seen
  }

  /** Once nothing is queued, every route from `start` has been expanded. */
  lemma {:induction false} RouteExpanded(m: Map, start: Id, goal: Id, euclid: (Point, Point) -> NonNeg,
                                         seen: set<seq<Id>>, expanded: set<seq<Id>>, q: seq<Id>)
    requires goal in m.intersections
    requires Covered(m, start, goal, euclid, seen, expanded, multiset{}) && Closed(m, seen, expanded)
    requires IsRoute(m, start, q)
    ensures q in expanded
    decreases |q|
  {
    if |q| == 1 {
      assert q == [start];
    } else {
      var p := q[..|q| - 1];
      forall i | 0 < i < |p| ensures RoadStep(m, p, i) {
        assert RoadStep(m, q, i);
      }
      assert IsRoute(m, start, p);
      RouteExpanded(m, start, goal, euclid, seen, expanded, p);
      assert q[|q| - 2] == Last(p);
      assert RoadStep(m, q, |q| - 1);
      assert Last(q) !in p;
      assert Step(m, p, Last(q));
      assert p + [Last(q)] == q;
    }
  }

  /** An exhausted search has expanded every route, and none of them reached the goal. */
  lemma Exhausted(m: Map, start: Id, goal: Id, euclid: (Point, Point) -> NonNeg,
                  seen: set<seq<Id>>, expanded: set<seq<Id>>)
    requires goal in m.intersections
    requires Covered(m, start, goal, euclid, seen, expanded, multiset{}) && Closed(m, seen, expanded)
    ensures !Reachable(m, start, goal)
  {
    forall q | IsRoute(m, start, q) ensures Last(q) != goal {
      RouteExpanded(m, start, goal, euclid, seen, expanded, q);
    }
  }

  /** Pushing the node of a new route keeps the state covered. */
  lemma PushCovered(m: Map, start: Id, goal: Id, euclid: (Point, Point) -> NonNeg,
                    seen: set<seq<Id>>, expanded: set<seq<Id>>, queued: multiset<Option<Node>>, p: seq<Id>)
    requires goal in m.intersections && IsRoute(m, start, p)
    requires Covered(m, start, goal, euclid, seen, expanded, queued)
    ensures Covered(m, start, goal, euclid, seen + {p}, expanded, queued + multiset{NodeOf(m, goal, euclid, p)})
  {
  }

  /** Expanding the popped path keeps the state covered once all its steps are seen. */
  lemma ExpandCovered(m: Map, start: Id, goal: Id, euclid: (Point, Point) -> NonNeg,
                      seen: set<seq<Id>>, expanded: set<seq<Id>>, queued: multiset<Option<Node>>, p: seq<Id>)
    requires goal in m.intersections && IsRoute(m, start, p) && p in seen && Last(p) != goal
    requires Covered(m, start, goal, euclid, seen, expanded, queued + multiset{NodeOf(m, goal, euclid, p)})
    ensures Covered(m, start, goal, euclid, seen, expanded + {p}, queued)
  {
    var all := queued + multiset{NodeOf(m, goal, euclid, p)};
    forall q | q in seen ensures q in expanded + {p} || NodeOf(m, goal, euclid, q) in queued {
      if q !in expanded && q != p {
        assert NodeOf(m, goal, euclid, q) in all;
        assert NodeOf(m, goal, euclid, q) != NodeOf(m, goal, euclid, p);
      }
    }
  }

  /** The planner's copy of `path` followed by `neighbour`. */
  method ExtendPath(path: seq<Id>, neighbour: Id) returns (newPath: seq<Id>)
    ensures newPath == path + [neighbour]
  {
    newPath := [];
    for i := 0 to |path|
      invariant newPath == path[..i]
    {
      newPath := newPath + [path[i]];
    }
    newPath := newPath + [neighbour];
  }

  /**
   * One step of an expansion: builds `path + [neighbour]`, costs it and pushes its node,
   * which is then the only slot the heap has gained; the heap's weight grows by one
   * extension weight.
   */
  method PushStep(heap: MinHeap, m: Map, start: Id, goal: Id, euclid: (Point, Point) -> NonNeg,
                  path: seq<Id>, neighbour: Id, ghost n: nat, ghost d: nat)
    requires WellFormed(m) && goal in m.intersections && heap.Valid()
    requires IsRoute(m, start, path) && Step(m, path, neighbour) && n == |m.intersections.Keys|
    modifies heap, heap.data
    ensures heap.Valid() && (heap.data == old(heap.data) || fresh(heap.data))
    ensures IsRoute(m, start, path + [neighbour])
    ensures multiset(heap.data[..heap.size])
         == multiset(old(heap.data[..heap.size])) + multiset{NodeOf(m, goal, euclid, path + [neighbour])}
    ensures Sum(n, d, heap.data[..heap.size]) == Sum(n, d, old(heap.data[..heap.size])) + ExtensionWeight(n, d, |path|)
  {
    var newPath := ExtendPath(path, neighbour);
    StepExtends(m, start, path, neighbour);
    SimpleBound(newPath, m.intersections.Keys);
    var newCost := CalcTotalCost(m.intersections, newPath, goal, euclid);
    ghost var node := NodeOf(m, goal, euclid, newPath);
    assert node == Some(Node(newPath, newCost));
    WeightOfExtension(n, d, |path|, node);
    ghost var prev := heap.data[..heap.size];
    heap.Push(Node(newPath, newCost));
    SumAdd(n, d, prev, heap.data[..heap.size], node);
  }

  /** One more road: it adds the step to its neighbour, with that step's node, unless the neighbour is on `path`. */
  lemma StepsGrow(m: Map, goal: Id, euclid: (Point, Point) -> NonNeg, path: seq<Id>, nbs: seq<Id>, k: nat)
    requires path != [] && Located(m.intersections, path) && goal in m.intersections && 0 < k <= |nbs|
    ensures nbs[k - 1] in path || nbs[k - 1] !in m.intersections ==>
              && StepPaths(m, path, nbs, k) == StepPaths(m, path, nbs, k - 1)
              && StepNodes(m, goal, euclid, path, nbs, k) == StepNodes(m, goal, euclid, path, nbs, k - 1)
    ensures nbs[k - 1] !in path && nbs[k - 1] in m.intersections ==>
              && Located(m.intersections, path + [nbs[k - 1]])
              && StepPaths(m, path, nbs, k) == StepPaths(m, path, nbs, k - 1) + {path + [nbs[k - 1]]}
              && StepNodes(m, goal, euclid, path, nbs, k)
                 == StepNodes(m, goal, euclid, path, nbs, k - 1) + multiset{NodeOf(m, goal, euclid, path + [nbs[k - 1]])}
  {
    if nbs[k - 1] in path || nbs[k - 1] !in m.intersections {
      assert StepNode(m, goal, euclid, path, nbs[k - 1]) == multiset{};
    }
  }

  /** Every step an expansion of the route `path` sees along the first `k` roads is a route whose node it queues. */
  lemma {:induction false} StepsSeen(m: Map, start: Id, goal: Id, euclid: (Point, Point) -> NonNeg, path: seq<Id>, k: nat)
    requires WellFormed(m) && goal in m.intersections && IsRoute(m, start, path)
    requires Last(path) in m.roads && k <= |m.roads[Last(path)]|
    ensures forall p :: p in StepPaths(m, path, m.roads[Last(path)], k) ==>
              IsRoute(m, start, p) && NodeOf(m, goal, euclid, p) in StepNodes(m, goal, euclid, path, m.roads[Last(path)], k)
  {
    var roads := m.roads[Last(path)];
    if k > 0 {
      StepsSeen(m, start, goal, euclid, path, k - 1);
      StepsGrow(m, goal, euclid, path, roads, k);
      var nb := roads[k - 1];
      if nb !in path && nb in m.intersections {
        assert Step(m, path, nb);
        StepExtends(m, start, path, nb);
      }
    }
  }

  /** Every node an expansion of `path` queues along the first `k` roads of `nbs` is the node of a step it sees. */
  lemma {:induction false} StepsQueued(m: Map, goal: Id, euclid: (Point, Point) -> NonNeg, path: seq<Id>, nbs: seq<Id>, k: nat)
    requires path != [] && Located(m.intersections, path) && goal in m.intersections && k <= |nbs|
    ensures forall x :: x in StepNodes(m, goal, euclid, path, nbs, k) ==>
              && x.Some? && x.value.path in StepPaths(m, path, nbs, k)
              && x.value.path != [] && Located(m.intersections, x.value.path)
              && x == NodeOf(m, goal, euclid, x.value.path)
  {
    if k > 0 {
      StepsQueued(m, goal, euclid, path, nbs, k - 1);
      StepsGrow(m, goal, euclid, path, nbs, k);
    }
  }

  /**
   * Seeing the steps of `path` along every road from its end, and queueing their nodes,
   * keeps the search state covered.
   */
  lemma StepsCovered(m: Map, start: Id, goal: Id, euclid: (Point, Point) -> NonNeg, path: seq<Id>,
                     seen: set<seq<Id>>, expanded: set<seq<Id>>, queued: multiset<Option<Node>>)
    requires WellFormed(m) && goal in m.intersections && IsRoute(m, start, path) && Last(path) in m.roads
    requires Covered(m, start, goal, euclid, seen, expanded, queued)
    ensures Covered(m, start, goal, euclid, seen + StepPaths(m, path, m.roads[Last(path)], |m.roads[Last(path)]|), expanded,
                    queued + StepNodes(m, goal, euclid, path, m.roads[Last(path)], |m.roads[Last(path)]|))
  {
    StepsSeen(m, start, goal, euclid, path, |m.roads[Last(path)]|);
    StepsQueued(m, goal, euclid, path, m.roads[Last(path)], |m.roads[Last(path)]|);
  }

  /** Every step of `path` along the first `k` roads from its end is among the paths it sees. */
  lemma {:induction false} StepPathsSeen(m: Map, path: seq<Id>, k: nat)
    requires WellFormed(m) && path != [] && Last(path) in m.roads && k <= |m.roads[Last(path)]|
    ensures forall nb :: nb in m.roads[Last(path)][..k] && nb !in path ==> path + [nb] in StepPaths(m, path, m.roads[Last(path)], k)
  {
    var roads := m.roads[Last(path)];
    if k > 0 {
      StepPathsSeen(m, path, k - 1);
      assert roads[..k] == roads[..k - 1] + [roads[k - 1]];
      assert roads[k - 1] in m.intersections;
    }
  }

  /** Seeing more paths keeps an expanded set closed. */
  lemma ClosedGrows(m: Map, seen: set<seq<Id>>, seen': set<seq<Id>>, expanded: set<seq<Id>>)
    requires Closed(m, seen, expanded) && seen <= seen'
    ensures Closed(m, seen', expanded)
  {
  }

  /**
   * The body of an expansion for the road to `neighbour`: pushes the node of
   * `path + [neighbour]` unless `neighbour` is already on `path`.
   */
  method PushRoad(heap: MinHeap, m: Map, start: Id, goal: Id, euclid: (Point, Point) -> NonNeg,
                  path: seq<Id>, neighbour: Id, ghost n: nat, ghost d: nat)
    requires WellFormed(m) && goal in m.intersections && heap.Valid()
    requires IsRoute(m, start, path) && Last(path) in m.roads && neighbour in m.roads[Last(path)]
    requires n == |m.intersections.Keys|
    modifies heap, heap.data
    ensures heap.Valid() && (heap.data == old(heap.data) || fresh(heap.data))
    ensures multiset(heap.data[..heap.size]) == multiset(old(heap.data[..heap.size])) + StepNode(m, goal, euclid, path, neighbour)
    ensures Sum(n, d, heap.data[..heap.size]) <= Sum(n, d, old(heap.data[..heap.size])) + ExtensionWeight(n, d, |path|)
  {
    if neighbour !in path {
      assert Step(m, path, neighbour);
      PushStep(heap, m, start, goal, euclid, path, neighbour, n, d);
      assert StepNode(m, goal, euclid, path, neighbour) == multiset{NodeOf(m, goal, euclid, path + [neighbour])};
    }
  }

  /**
   * One expansion: pushes the node of every step from the popped `path`, in road
   * order, skipping neighbours already on the path.  The heap gains exactly those
   * nodes, and its weight grows by at most one extension weight per road.
   */
  method PushSteps(heap: MinHeap, m: Map, start: Id, goal: Id, euclid: (Point, Point) -> NonNeg, path: seq<Id>,
                   ghost n: nat, ghost d: nat)
    requires WellFormed(m) && goal in m.intersections && heap.Valid()
    requires IsRoute(m, start, path) && n == |m.intersections.Keys|
    modifies heap, heap.data
    ensures heap.Valid() && (heap.data == old(heap.data) || fresh(heap.data))
    ensures multiset(heap.data[..heap.size])
         == multiset(old(heap.data[..heap.size])) + StepNodes(m, goal, euclid, path, m.roads[Last(path)], |m.roads[Last(path)]|)
    ensures Sum(n, d, heap.data[..heap.size])
         <= Sum(n, d, old(heap.data[..heap.size])) + |m.roads[Last(path)]| * ExtensionWeight(n, d, |path|)
  {
    ghost var before := heap.data[..heap.size];
    ghost var e := ExtensionWeight(n, d, |path|);
    ghost var budget := 0;
    var frontier := path[|path| - 1];
    var neighbours := m.roads[frontier];
    for j := 0 to |neighbours|
      invariant heap.Valid() && (heap.data == old(heap.data) || fresh(heap.data))
      invariant multiset(heap.data[..heap.size]) == multiset(before) + StepNodes(m, goal, euclid, path, neighbours, j)
      invariant budget == Times(j, e) && Sum(n, d, heap.data[..heap.size]) <= Sum(n, d, before) + budget
    {
      var neighbour := neighbours[j];
      PushRoad(heap, m, start, goal, euclid, path, neighbour, n, d);
      budget := budget + e;
    }
    TimesIsProduct(|neighbours|, e);
  }

  /**
   * Pushing the steps of the popped `path` keeps the search state covered and the
   * expanded set closed once those steps are seen, and every step of `path` is then seen.
   */
  lemma Expanded(m: Map, start: Id, goal: Id, euclid: (Point, Point) -> NonNeg, path: seq<Id>, popped: Option<Node>,
                 seen: set<seq<Id>>, expanded: set<seq<Id>>, before: seq<Option<Node>>, after: seq<Option<Node>>)
    requires WellFormed(m) && goal in m.intersections && IsRoute(m, start, path) && Last(path) in m.roads
    requires Covered(m, start, goal, euclid, seen, expanded, multiset(before) + multiset{popped})
    requires Closed(m, seen, expanded)
    requires multiset(after) == multiset(before) + StepNodes(m, goal, euclid, path, m.roads[Last(path)], |m.roads[Last(path)]|)
    ensures Covered(m, start, goal, euclid, seen + StepPaths(m, path, m.roads[Last(path)], |m.roads[Last(path)]|),
                    expanded, multiset(after) + multiset{popped})
    ensures Closed(m, seen + StepPaths(m, path, m.roads[Last(path)], |m.roads[Last(path)]|), expanded)
    ensures forall nb :: Step(m, path, nb) ==> path + [nb] in StepPaths(m, path, m.roads[Last(path)], |m.roads[Last(path)]|)
  {
    var roads := m.roads[Last(path)];
    StepsCovered(m, start, goal, euclid, path, seen, expanded, multiset(before) + multiset{popped});
    assert multiset(before) + multiset{popped} + StepNodes(m, goal, euclid, path, roads, |roads|)
        == multiset(after) + multiset{popped};
    ClosedGrows(m, seen, seen + StepPaths(m, path, roads, |roads|), expanded);
    StepPathsSeen(m, path, |roads|);
    assert roads[..|roads|] == roads;
  }

  /** Popping a path and pushing at most `d` of its extensions lowers the heap's weight. */
  lemma Lighter(n: nat, d: nat, before: seq<Option<Node>>, afterPop: seq<Option<Node>>, after: seq<Option<Node>>,
                popped: Option<Node>, k: nat)
    requires popped.Some? && |popped.value.path| <= n && k <= d
    requires Sum(n, d, before) == Sum(n, d, afterPop) + Weight(n, d, popped)
    requires Sum(n, d, after) <= Sum(n, d, afterPop) + k * ExtensionWeight(n, d, |popped.value.path|)
    ensures Sum(n, d, after) < Sum(n, d, before)
  {
    ExtensionsLighter(n, d, |popped.value.path|, k);
  }

  lemma ReachedGoal(m: Map, start: Id, goal: Id, p: seq<Id>)
    requires IsRoute(m, start, p) && Last(p) == goal
    ensures Reachable(m, start, goal)
  {
  }

  lemma StartReachesItself(m: Map, start: Id)
    requires start in m.intersections
    ensures Reachable(m, start, start)
  {
    assert IsRoute(m, start, [start]) && Last([start]) == start;
  }

  /** A simple route that ends where it starts is the one-id route. */
  lemma RouteBackToStart(m: Map, start: Id, p: seq<Id>)
    requires IsRoute(m, start, p) && Last(p) == start
    ensures p == [start]
  {
  }

  /**
   * The planner: `None` when `start` or `goal` is not a known id (the Python planner raises a
   * KeyError); otherwise the last popped path, which is a simple route from `start`,
   * ends at `goal` exactly when `goal` is reachable, and is `[start]` when `start == goal`.
   */
  method ShortestPath(m: Map, start: Id, goal: Id, euclid: (Point, Point) -> NonNeg) returns (r: Option<seq<Id>>)
    requires WellFormed(m)
    ensures r.None? <==> start !in m.intersections || goal !in m.intersections
    ensures r.Some? ==> IsRoute(m, start, r.value)
    ensures r.Some? ==> (Last(r.value) == goal <==> Reachable(m, start, goal))
    ensures r.Some? && start == goal ==> r.value == [start]
  {
    if start !in m.intersections || goal !in m.intersections {
      return None;
    }
    var path := Search(m, start, goal, euclid);
    r := Some(path);
  }

  /**
   * The search loop for known `start` and `goal`: pops the cheapest path, pushes its
   * extensions, and stops after popping a path that ends at `goal` or when the heap
   * runs empty.  Returns the last popped path.
   */
  method Search(m: Map, start: Id, goal: Id, euclid: (Point, Point) -> NonNeg) returns (result: seq<Id>)
    requires WellFormed(m) && start in m.intersections && goal in m.intersections
    ensures IsRoute(m, start, result)
    ensures Last(result) == goal <==> Reachable(m, start, goal)
    ensures start == goal ==> result == [start]
  {
    ghost var n := |m.intersections.Keys|;
    ghost var d := DegreeBound(m.roads, m.roads.Keys);
    var heap := new MinHeap();
    var startPath := [start];
    var startCost := CalcTotalCost(m.intersections, startPath, goal, euclid);
    heap.Push(Node(startPath, startCost));
    ghost var seen: set<seq<Id>> := {startPath};
    ghost var expanded: set<seq<Id>> := {};
    var popped: Option<seq<Id>> := None;
    var size := heap.GetSize();
    while size > 0
      invariant fresh(heap) && fresh(heap.data) && heap.Valid() && size == heap.size
      invariant Covered(m, start, goal, euclid, seen, expanded, multiset(heap.data[..heap.size]))
      invariant Closed(m, seen, expanded)
      invariant popped.None? ==> heap.size == 1
      invariant popped.Some? ==> IsRoute(m, start, popped.value) && Last(popped.value) != goal
      decreases Sum(n, d, heap.data[..heap.size])
    {
      var path;
      path, seen, expanded := ExpandCheapest(heap, m, start, goal, euclid, seen, expanded, n, d);
      popped := Some(path);
      if path[|path| - 1] == goal {
        break;
      }
      size := heap.GetSize();
    }
    result := popped.value;
    if Last(result) != goal {
      assert heap.data[..heap.size] == [];
    }
    Conclude(m, start, goal, euclid, seen, expanded, result);
  }

  /**
   * One round of the search loop: pops the cheapest node and pushes every extension of
   * its path by a neighbour not on it.  Unless the popped path ends at `goal`, the
   * path is recorded as expanded, the search invariants still hold and the heap is
   * strictly lighter.
   */
  method ExpandCheapest(heap: MinHeap, m: Map, start: Id, goal: Id, euclid: (Point, Point) -> NonNeg,
                        ghost seen: set<seq<Id>>, ghost expanded: set<seq<Id>>, ghost n: nat, ghost d: nat)
    returns (path: seq<Id>, ghost seen': set<seq<Id>>, ghost expanded': set<seq<Id>>)
    requires WellFormed(m) && goal in m.intersections && heap.Valid() && heap.size > 0
    requires n == |m.intersections.Keys| && forall a :: a in m.roads.Keys ==> |m.roads[a]| <= d
    requires Covered(m, start, goal, euclid, seen, expanded, multiset(heap.data[..heap.size]))
    requires Closed(m, seen, expanded)
    modifies heap, heap.data
    ensures heap.Valid() && (heap.data == old(heap.data) || fresh(heap.data))
    ensures IsRoute(m, start, path)
    ensures old(heap.data[0]).Some? && path == old(heap.data[0]).value.path
    ensures multiset(heap.data[..heap.size]) + multiset{old(heap.data[0])}
         == multiset(old(heap.data[..heap.size])) + StepNodes(m, goal, euclid, path, m.roads[Last(path)], |m.roads[Last(path)]|)
    ensures Last(path) != goal ==>
              && Covered(m, start, goal, euclid, seen', expanded', multiset(heap.data[..heap.size]))
              && Closed(m, seen', expanded')
              && Sum(n, d, heap.data[..heap.size]) < Sum(n, d, old(heap.data[..heap.size]))
  {
    ghost var before := heap.data[..heap.size];
    var popped := heap.Pop();
    ghost var afterPop := heap.data[..heap.size];
    assert multiset(before) == multiset(afterPop) + multiset{popped};
    path := popped.value.path;
    assert popped in multiset(before);
    assert IsRoute(m, start, path) && path in seen;
    SimpleBound(path, m.intersections.Keys);
    SumAdd(n, d, afterPop, before, popped);
    PushSteps(heap, m, start, goal, euclid, path, n, d);
    Expanded(m, start, goal, euclid, path, popped, seen, expanded, afterPop, heap.data[..heap.size]);
    seen', expanded' := seen + StepPaths(m, path, m.roads[Last(path)], |m.roads[Last(path)]|), expanded;
    if Last(path) != goal {
      ExpandCovered(m, start, goal, euclid, seen', expanded, multiset(heap.data[..heap.size]), path);
      expanded' := expanded + {path};
      Lighter(n, d, before, afterPop, heap.data[..heap.size], popped, |m.roads[Last(path)]|);
    }
  }

  /**
   * What the last popped path says: it ends at `goal` exactly when `goal` is reachable,
   * since a search that stopped elsewhere expanded every route from `start`.
   */
  lemma Conclude(m: Map, start: Id, goal: Id, euclid: (Point, Point) -> NonNeg,
                 seen: set<seq<Id>>, expanded: set<seq<Id>>, result: seq<Id>)
    requires start in m.intersections && goal in m.intersections && IsRoute(m, start, result)
    requires Last(result) != goal ==>
               Covered(m, start, goal, euclid, seen, expanded, multiset{}) && Closed(m, seen, expanded)
    ensures Last(result) == goal <==> Reachable(m, start, goal)
    ensures start == goal ==> result == [start]
  {
    if Last(result) == goal {
      ReachedGoal(m, start, goal, result);
      if start == goal {
        RouteBackToStart(m, start, result);
      }
    } else {
      Exhausted(m, start, goal, euclid, seen, expanded);
      if start == goal {
        StartReachesItself(m, start);
        assert false;
      }
    }
  }

  /**
   * On a map of two unconnected intersections, the planner asked for a route from 1 to 2
   * returns `[1]`, a path that does not end at 2, where the empty path of its final
   * branch was evidently meant.
   */
  method UnreachableGoal(euclid: (Point, Point) -> NonNeg) returns (r: Option<seq<Id>>)
    ensures r == Some([1])
  {
    var m := Map(map[1 := Point(0.0, 0.0), 2 := Point(1.0, 0.0)], map[1 := [], 2 := []]);
    forall p | IsRoute(m, 1, p) ensures p == [1] {
      if 1 < |p| {
        NoFirstStep(m, p);
        assert false;
      }
    }
    r := ShortestPath(m, 1, 2, euclid);
  }

  /** From an intersection without roads there is no first step. */
  lemma NoFirstStep(m: Map, p: seq<Id>)
    requires 1 < |p| && p[0] in m.roads && m.roads[p[0]] == []
    ensures !RoadStep(m, p, 1)
  {
  }

  /**
   * The planner with the result its final branch intends: `[]` when `start` or `goal` is
   * unknown or no route reaches `goal`, and otherwise a simple route from `start` to `goal`.
   */
  method FindShortestPath(m: Map, start: Id, goal: Id, euclid: (Point, Point) -> NonNeg) returns (p: seq<Id>)
    requires WellFormed(m)
    ensures p == [] <==> start !in m.intersections || goal !in m.intersections || !Reachable(m, start, goal)
    ensures p != [] ==> IsRoute(m, start, p) && Last(p) == goal
    ensures p != [] && start == goal ==> p == [start]
  {
    var r := ShortestPath(m, start, goal, euclid);
    if r.Some? && Last(r.value) == goal {
      p := r.value;
    } else {
      p := [];
    }
  }
}

=== FILE: router.dfy ===
/**
 * Request routing with a trie of path segments.  A path is split on '/' with the
 * empty segments dropped; each segment selects a child node, and a node may carry
 * a handler.  The router answers with the handler stored for a path, or with its
 * not-found handler when there is none or it is falsy.
 *
 * The trie's nodes live in an arena (module TrieArena): node `n` has the children
 * map `children[n]` from segment to node index and the handler `handlers[n]`.
 * Handlers are strings or Python's `None`; `None` and "" are falsy.
 */
module RequestRouter {
  import opened Wrappers
  import opened TrieArena

  type Handler = Option<string>

  /** Python truthiness of a handler. */
  predicate Truthy(h: Handler) {
    h.Some? && h.value != ""
  }

  // ---------------------------------------------------------------------------
  // Splitting a path
  // ---------------------------------------------------------------------------

  /** `s.split("/")`: the pieces between the slashes, one more piece than slashes. */
  function Split(s: string): (parts: seq<string>)
    ensures parts != []
    ensures forall i :: 0 <= i < |parts| ==> '/' !in parts[i]
  {
    if s == [] then [""]
    else
      var rest := Split(s[1..]);
      if s[0] == '/' then [""] + rest else [[s[0]] + rest[0]] + rest[1..]
  }

  /** There is one more piece than there are slashes. */
  lemma {:induction false} SplitCount(s: string)
    ensures |Split(s)| == multiset(s)['/'] + 1
    decreases |s|
  {
    if s != [] {
      SplitCount(s[1..]);
      assert s == [s[0]] + s[1..];
      assert multiset(s) == multiset{s[0]} + multiset(s[1..]);
    }
  }

  /** The pieces that are not empty, in order. */
  function NonEmpty(parts: seq<string>): (r: seq<string>)
    ensures forall x :: x in r <==> x in parts && x != ""
  {
    if parts == [] then []
    else (if parts[0] == "" then [] else [parts[0]]) + NonEmpty(parts[1..])
  }

  /** The segments of a path: the pieces between slashes that are not empty. */
  function SplitPath(path: string): (segs: seq<string>)
    ensures forall i :: 0 <= i < |segs| ==> segs[i] != "" && '/' !in segs[i]
  {
    var parts := Split(path);
    var segs := NonEmpty(parts);
    assert forall i :: 0 <= i < |segs| ==> segs[i] in parts;
    segs
  }

  /** The path "/s1/s2/…" of the segments. */
  function JoinPath(segs: seq<string>): string {
    if segs == [] then "" else "/" + segs[0] + JoinPath(segs[1..])
  }

  lemma {:induction false} NonEmptyAppend(a: seq<string>, b: seq<string>)
    ensures NonEmpty(a + b) == NonEmpty(a) + NonEmpty(b)
    decreases |a|
  {
    if a == [] {
      assert a + b == b;
    } else {
      assert (a + b)[0] == a[0] && (a + b)[1..] == a[1..] + b;
      NonEmptyAppend(a[1..], b);
    }
  }

  /** A trailing slash adds one empty piece at the end. */
  lemma {:induction false} SplitTrailingSlash(p: string)
    ensures Split(p + "/") == Split(p) + [""]
    decreases |p|
  {
    if p != [] {
      assert (p + "/")[0] == p[0] && (p + "/")[1..] == p[1..] + "/";
      SplitTrailingSlash(p[1..]);
    }
  }

  /** A trailing slash does not change the segments. */
  lemma SplitPathTrailingSlash(p: string)
    ensures SplitPath(p + "/") == SplitPath(p)
  {
    SplitTrailingSlash(p);
    NonEmptyAppend(Split(p), [""]);
    assert NonEmpty([""]) == [];
  }

  /** A piece without slashes joins the first piece of what follows it. */
  lemma {:induction false} SplitSegment(seg: string, r: string)
    requires '/' !in seg
    ensures Split(seg + r) == [seg + Split(r)[0]] + Split(r)[1..]
    decreases |seg|
  {
    if seg == [] {
      assert seg + r == r;
      assert seg + Split(r)[0] == Split(r)[0];
      assert [Split(r)[0]] + Split(r)[1..] == Split(r);
    } else {
      assert (seg + r)[0] == seg[0] && (seg + r)[1..] == seg[1..] + r;
      SplitSegment(seg[1..], r);
      assert [seg[0]] + (seg[1..] + Split(r)[0]) == seg + Split(r)[0];
    }
  }

  lemma {:induction false} SplitJoin(segs: seq<string>)
    requires forall i :: 0 <= i < |segs| ==> '/' !in segs[i]
    ensures Split(JoinPath(segs)) == [""] + segs
    decreases |segs|
  {
    if segs != [] {
      var rest := JoinPath(segs[1..]);
      SplitJoin(segs[1..]);
      SplitSegment(segs[0], rest);
      var tail := segs[0] + rest;
      assert JoinPath(segs) == "/" + tail;
      assert ("/" + tail)[0] == '/' && ("/" + tail)[1..] == tail;
      assert Split(JoinPath(segs)) == [""] + Split(tail);
      assert Split(rest)[0] == "" && Split(rest)[1..] == segs[1..];
      assert segs[0] + "" == segs[0];
      assert [segs[0]] + segs[1..] == segs;
    }
  }

  lemma {:induction false} NonEmptyKeeps(segs: seq<string>)
    requires forall i :: 0 <= i < |segs| ==> segs[i] != ""
    ensures NonEmpty(segs) == segs
    decreases |segs|
  {
    if segs != [] {
      NonEmptyKeeps(segs[1..]);
    }
  }

  /** Splitting the path of non-empty, slash-free segments gives the segments back. */
  lemma SplitPathJoin(segs: seq<string>)
    requires forall i :: 0 <= i < |segs| ==> segs[i] != "" && '/' !in segs[i]
    ensures SplitPath(JoinPath(segs)) == segs
  {
    SplitJoin(segs);
    NonEmptyKeeps(segs);
    assert ([""] + segs)[1..] == segs;
  }

  // ---------------------------------------------------------------------------
  // The trie, on values
  // ---------------------------------------------------------------------------

  /** What the trie answers for `q`: the handler of the node it leads to, `None` when it leads nowhere. */
  function Stored(children: seq<map<string, nat>>, handlers: seq<Handler>, q: seq<string>): Handler {
    match Reach(children, q)
    case None => None
    case Some(n) => if n < |handlers| then handlers[n] else None
  }

  /**
   * A fresh child whose handler is `None` changes no answer of the trie, and every
   * path that led somewhere still leads there.
   */
  lemma AddChildStored(children: seq<map<string, nat>>, handlers: seq<Handler>, n: nat, w: string, q: seq<string>)
    requires n < |children| == |handlers| && w !in children[n]
    ensures Stored(AddChild(children, n, w), handlers + [None], q) == Stored(children, handlers, q)
    ensures Reach(children, q).Some? ==> Reach(AddChild(children, n, w), q) == Reach(children, q)
  {
    AddChildReach(children, n, w, q);
    AddChildKeeps(children, n, w, q);
  }

  /** Setting the handler of the node `path` reaches answers `h` for that path and nothing else. */
  lemma SetHandlerStored(children: seq<map<string, nat>>, handlers: seq<Handler>, paths: seq<seq<string>>,
                         path: seq<string>, node: nat, h: Handler)
    requires Shaped(children, paths) && |handlers| == |children|
    requires Reach(children, path) == Some(node) && node < |children|
    ensures forall q :: Stored(children, handlers[node := h], q) == if q == path then h else Stored(children, handlers, q)
  {
    ReachPath(children, paths, path);
    forall q
      ensures Stored(children, handlers[node := h], q) == if q == path then h else Stored(children, handlers, q)
    {
      ReachPath(children, paths, q);
    }
  }

  /** A fresh arena holding the root alone answers `root` for no segments and `None` otherwise. */
  lemma {:induction false} LoneRoot(root: Handler, q: seq<string>)
    ensures Stored([map[]], [root], q) == if q == [] then root else None
    decreases |q|
  {
    if q != [] {
      LoneRoot(root, q[..|q| - 1]);
    }
  }

  // ---------------------------------------------------------------------------
  // The trie, in place
  // ---------------------------------------------------------------------------

  class RouteTrie {
    var children: seq<map<string, nat>>
    var handlers: seq<Handler>
    ghost var paths: seq<seq<string>>

    ghost predicate Valid()
      reads this
    {
      |handlers| == |children| && Shaped(children, paths)
    }

    /** A trie holding the root alone, with the root handler. */
    constructor(rootHandler: Handler)
      ensures Valid()
      ensures forall q :: Stored(children, handlers, q) == if q == [] then rootHandler else None
    {
      children := [map[]];
      handlers := [rootHandler];
      paths := [[]];
      new;
      forall q
        ensures Stored(children, handlers, q) == if q == [] then rootHandler else None
      {
        LoneRoot(rootHandler, q);
      }
    }

    /**
     * The child of `node` for `word`: the existing one, or else a fresh node without
     * children and with handler `None`.  No answer of the trie changes.
     */
    method InsertChild(node: nat, word: string, ghost q: seq<string>) returns (child: nat)
      requires Valid() && node < |children| && Reach(children, q) == Some(node)
      modifies this
      ensures Valid() && node < |children| && child < |children|
      ensures Reach(children, q + [word]) == Some(child)
      ensures word in children[node] && children[node][word] == child
      ensures word in old(children[node]) ==>
                child == old(children[node][word]) && children == old(children) && handlers == old(handlers)
      ensures word !in old(children[node]) ==>
                && child == old(|children|)
                && children == AddChild(old(children), node, word)
                && handlers == old(handlers) + [None]
      ensures forall q :: Stored(children, handlers, q) == old(Stored(children, handlers, q))
      ensures forall q :: old(Reach(children, q)).Some? ==> Reach(children, q) == old(Reach(children, q))
    {
      if word in children[node] {
        child := children[node][word];
      } else {
        child := |children|;
        forall q
          ensures Stored(AddChild(children, node, word), handlers + [None], q) == Stored(children, handlers, q)
          ensures Reach(children, q).Some? ==> Reach(AddChild(children, node, word), q) == Reach(children, q)
        {
          AddChildStored(children, handlers, node, word, q);
        }
        AddChildShaped(children, paths, node, word);
        paths := paths + [paths[node] + [word]];
        children := AddChild(children, node, word);
        handlers := handlers + [None];
      }
    }

    /**
     * Walks the segments from the root, adding the missing children, and sets the
     * handler of the last node.  No segments: nothing changes.
     */
    method Insert(path: seq<string>, handler: Handler)
      requires Valid()
      modifies this
      ensures Valid()
      ensures forall q :: Stored(children, handlers, q)
                       == if q == path && path != [] then handler else old(Stored(children, handlers, q))
    {
      var cur := 0;
      for i := 0 to |path|
        invariant Valid() && cur < |children|
        invariant Reach(children, path[..i]) == Some(cur)
        invariant forall q :: Stored(children, handlers, q)
                           == if q == path && i == |path| && path != [] then handler else old(Stored(children, handlers, q))
      {
        cur := InsertChild(cur, path[i], path[..i]);
        assert path[..i] + [path[i]] == path[..i + 1];
        if i == |path| - 1 {
          assert path[..i + 1] == path;
          SetHandler(cur, handler, path);
        }
      }
    }

    /** Sets the handler of `node`, the node the segments `path` lead to. */
    method SetHandler(node: nat, h: Handler, ghost path: seq<string>)
      requires Valid() && node < |children| && Reach(children, path) == Some(node)
      modifies this
      ensures Valid() && children == old(children)
      ensures forall q :: Stored(children, handlers, q) == if q == path then h else old(Stored(children, handlers, q))
    {
      SetHandlerStored(children, handlers, paths, path, node, h);
      handlers := handlers[node := h];
    }

    /** The handler stored for the segments, `None` when a segment has no child. */
    method Find(path: seq<string>) returns (h: Handler)
      requires Valid()
      ensures h == Stored(children, handlers, path)
    {
      var node := Descend(children, path);
      h := if node.Some? then handlers[node.value] else None;
    }
  }

  // ---------------------------------------------------------------------------
  // The router
  // ---------------------------------------------------------------------------

  /** The router's answer for `path`: the stored handler when truthy, else `notFound`. */
  function Route(children: seq<map<string, nat>>, handlers: seq<Handler>, notFound: Handler, path: string): Handler {
    var h := Stored(children, handlers, SplitPath(path));
    if Truthy(h) then h else notFound
  }

  /** With and without a trailing slash, a path gets the same answer. */
  lemma RouteTrailingSlash(children: seq<map<string, nat>>, handlers: seq<Handler>, notFound: Handler, path: string)
    ensures Route(children, handlers, notFound, path + "/") == Route(children, handlers, notFound, path)
  {
    SplitPathTrailingSlash(path);
  }

  class Router {
    const trie: RouteTrie
    const notFound: Handler
    ghost const rootHandler: Handler

    /** The trie is well formed and the root still holds the root handler. */
    ghost predicate Valid()
      reads this, trie
    {
      trie.Valid() && Stored(trie.children, trie.handlers, []) == rootHandler
    }

    constructor(rootHandler: Handler, notFoundHandler: Handler)
      ensures Valid() && fresh(trie)
      ensures this.rootHandler == rootHandler && notFound == notFoundHandler
      ensures forall q :: Stored(trie.children, trie.handlers, q) == if q == [] then rootHandler else None
    {
      trie := new RouteTrie(rootHandler);
      notFound := notFoundHandler;
      this.rootHandler := rootHandler;
    }

    /**
     * Stores `handler` for the segments of `path`.  Every path with those segments
     * gets `handler` (the not-found handler when it is falsy); every other path keeps
     * its answer.  A path without segments, such as "/", changes nothing.
     */
    method AddHandler(path: string, handler: Handler)
      requires Valid()
      modifies trie
      ensures Valid()
      ensures forall p :: Route(trie.children, trie.handlers, notFound, p)
                       == if SplitPath(p) == SplitPath(path) && SplitPath(path) != []
                          then (if Truthy(handler) then handler else notFound)
                          else old(Route(trie.children, trie.handlers, notFound, p))
      ensures SplitPath(path) != [] && Truthy(handler) ==> Route(trie.children, trie.handlers, notFound, path) == handler
    {
      var segs := SplitPath(path);
      trie.Insert(segs, handler);
    }

    /**
     * The handler for `path`: the stored one when it is truthy, else the not-found
     * handler.  A path without segments gets the root handler.
     */
    method Lookup(path: string) returns (r: Handler)
      requires Valid()
      ensures r == Route(trie.children, trie.handlers, notFound, path)
      ensures SplitPath(path) == [] ==> r == if Truthy(rootHandler) then rootHandler else notFound
      ensures Reach(trie.children, SplitPath(path)).None? ==> r == notFound
      ensures r != notFound ==> Truthy(r) && r == Stored(trie.children, trie.handlers, SplitPath(path))
    {
      var segs := SplitPath(path);
      var h := trie.Find(segs);
      if !Truthy(h) {
        return notFound;
      }
      return h;
    }
  }

  /** "/" has no segments. */
  lemma RootSegments()
    ensures SplitPath("/") == []
  {
    SplitPathJoin([]);
    SplitPathTrailingSlash("");
    assert "" + "/" == "/";
  }

  /** "/home" has the one segment "home". */
  lemma HomeSegments()
    ensures SplitPath("/home") == ["home"]
  {
    SplitPathJoin(["home"]);
    assert JoinPath(["home"]) == "/home";
  }

  /** "/home/about", with or without a trailing slash, has the segments "home" and "about". */
  lemma AboutSegments()
    ensures SplitPath("/home/about") == ["home", "about"]
    ensures SplitPath("/home/about/") == ["home", "about"]
  {
    SplitPathJoin(["home", "about"]);
    assert JoinPath(["home", "about"]) == "/home/about";
    SplitPathTrailingSlash("/home/about");
    assert "/home/about" + "/" == "/home/about/";
  }

  /** "/home/about/me" has three segments. */
  lemma AboutMeSegments()
    ensures SplitPath("/home/about/me") == ["home", "about", "me"]
  {
    SplitPathJoin(["home", "about", "me"]);
    assert JoinPath(["home", "about", "me"]) == "/home/about/me";
  }

  /**
   * The router of the example: a root and a not-found handler and one route,
   * "/home/about".  It answers the about handler for the segments of that route,
   * the root handler for no segments, and the not-found handler otherwise.
   */
  method ExampleRouter() returns (router: Router)
    ensures fresh(router) && router.Valid() && router.notFound == Some("not found handler")
    ensures forall p :: Route(router.trie.children, router.trie.handlers, router.notFound, p)
                     == if SplitPath(p) == ["home", "about"] then Some("about handler")
                        else if SplitPath(p) == [] then Some("root handler")
                        else Some("not found handler")
  {
    AboutSegments();
    router := new Router(Some("root handler"), Some("not found handler"));
    router.AddHandler("/home/about", Some("about handler"));
  }

  /** The example: a lookup of `path` after the route "/home/about" is added. */
  method Example(path: string) returns (r: Handler)
    ensures path == "/" ==> r == Some("root handler")
    ensures path == "/home" ==> r == Some("not found handler")
    ensures path == "/home/about" ==> r == Some("about handler")
    ensures path == "/home/about/" ==> r == Some("about handler")
    ensures path == "/home/about/me" ==> r == Some("not found handler")
  {
    var router := ExampleRouter();
    r := router.Lookup(path);
    if path == "/" {
      RootSegments();
    } else if path == "/home" {
      HomeSegments();
    } else if path == "/home/about" || path == "/home/about/" {
      AboutSegments();
    } else if path == "/home/about/me" {
      AboutMeSegments();
    }
  }
}

=== FILE: trie_arena.dfy ===
/**
 * The shape shared by the two tries of the project (the route trie and the
 * autocomplete trie), kept on values.  The nodes live in an arena: node `n` has the
 * children map `children[n]` from key to node index, and node 0 is the root.  A
 * ghost `paths[n]` records the keys that lead from the root to node `n`.  Each trie
 * adds its own per-node payload beside `children`.
 */
module TrieArena {
  import opened Wrappers

  /** The node the keys `q` lead to from the root, if every key has a child. */
  function Reach<K>(children: seq<map<K, nat>>, q: seq<K>): Option<nat>
    decreases |q|
  {
    if q == [] then Some(0)
    else
      match Reach(children, q[..|q| - 1])
      case None => None
      case Some(n) =>
        if n < |children| && q[|q| - 1] in children[n] then Some(children[n][q[|q| - 1]]) else None
  }

  /**
   * The arena is a tree: node 0 is the root, reached by no keys; each child is a later
   * node of the arena whose path is its parent's path and its own key; and each
   * node's path leads to it.
   */
  ghost predicate Shaped<K>(children: seq<map<K, nat>>, paths: seq<seq<K>>) {
    && |paths| == |children| >= 1
    && paths[0] == []
    && (forall n, w :: 0 <= n < |children| && w in children[n] ==>
          n < children[n][w] < |children| && paths[children[n][w]] == paths[n] + [w])
    && (forall m :: 0 <= m < |children| ==> Reach(children, paths[m]) == Some(m))
  }

  /** Every key sequence that leads to a node in `before` leads to the same node in `after`. */
  ghost predicate KeepsReach<K(!new)>(before: seq<map<K, nat>>, after: seq<map<K, nat>>) {
    forall q :: Reach(before, q).Some? ==> Reach(after, q) == Reach(before, q)
  }

  lemma KeepsReachTrans<K(!new)>(a: seq<map<K, nat>>, b: seq<map<K, nat>>, c: seq<map<K, nat>>)
    requires KeepsReach(a, b) && KeepsReach(b, c)
    ensures KeepsReach(a, c)
  {
  }

  /** Every child index names a node of the arena. */
  ghost predicate Closed<K>(children: seq<map<K, nat>>) {
    forall n, w :: 0 <= n < |children| && w in children[n] ==> children[n][w] < |children|
  }

  /**
   * Follows the keys `q` from the root one child at a time, stopping with None at the
   * first key the current node has no child for.
   */
  method Descend<K>(children: seq<map<K, nat>>, q: seq<K>) returns (r: Option<nat>)
    requires |children| >= 1 && Closed(children)
    ensures r == Reach(children, q)
    ensures r.Some? ==> r.value < |children|
  {
    var cur := 0;
    for i := 0 to |q|
      invariant cur < |children|
      invariant Reach(children, q[..i]) == Some(cur)
    {
      assert q[..i + 1][..i] == q[..i];
      if q[i] in children[cur] {
        cur := children[cur][q[i]];
      } else {
        ReachNone(children, q[..i + 1], q[i + 1..]);
        assert q[..i + 1] + q[i + 1..] == q;
        return None;
      }
    }
    assert q[..|q|] == q;
    r := Some(cur);
  }

  /** In a tree-shaped arena the keys that reach a node are that node's path. */
  lemma {:induction false} ReachPath<K>(children: seq<map<K, nat>>, paths: seq<seq<K>>, q: seq<K>)
    requires Shaped(children, paths)
    ensures Reach(children, q).Some? ==> Reach(children, q).value < |children| && paths[Reach(children, q).value] == q
    decreases |q|
  {
    if q != [] {
      var p := q[..|q| - 1];
      ReachPath(children, paths, p);
      assert p + [q[|q| - 1]] == q;
    }
  }

  /** Once the keys lead nowhere, longer key sequences lead nowhere either. */
  lemma {:induction false} ReachNone<K>(children: seq<map<K, nat>>, p: seq<K>, rest: seq<K>)
    requires Reach(children, p).None?
    ensures Reach(children, p + rest).None?
    decreases |rest|
  {
    if rest == [] {
      assert p + rest == p;
    } else {
      var init := rest[..|rest| - 1];
      ReachNone(children, p, init);
      assert (p + rest)[..|p + rest| - 1] == p + init;
    }
  }

  /** The arena after node `n` gains the new child `w`, with no children of its own. */
  function AddChild<K>(children: seq<map<K, nat>>, n: nat, w: K): seq<map<K, nat>>
    requires n < |children|
  {
    var grown: map<K, nat> := children[n][w := |children|];
    children[n := grown] + [map[]]
  }

  /** A new child is reached by exactly the keys that reach its parent followed by its own key. */
  lemma {:induction false} AddChildReach<K>(children: seq<map<K, nat>>, n: nat, w: K, q: seq<K>)
    requires n < |children| && w !in children[n]
    ensures Reach(AddChild(children, n, w), q)
         == if q != [] && q[|q| - 1] == w && Reach(children, q[..|q| - 1]) == Some(n)
            then Some(|children|) else Reach(children, q)
    decreases |q|
  {
    if q != [] {
      var p := q[..|q| - 1];
      AddChildReach(children, n, w, p);
      if p != [] && p[|p| - 1] == w && Reach(children, p[..|p| - 1]) == Some(n) {
        assert Reach(children, p) == None;
      }
    }
  }

  /** Keys that reached a node before a child is added still reach it. */
  lemma AddChildKeeps<K>(children: seq<map<K, nat>>, n: nat, w: K, q: seq<K>)
    requires n < |children| && w !in children[n]
    ensures Reach(children, q).Some? ==> Reach(AddChild(children, n, w), q) == Reach(children, q)
  {
    AddChildReach(children, n, w, q);
    if q != [] && q[|q| - 1] == w && Reach(children, q[..|q| - 1]) == Some(n) {
      assert Reach(children, q) == None;
    }
  }

  /** Adding a child whose path is its parent's and its key keeps the arena a tree. */
  lemma AddChildShaped<K>(children: seq<map<K, nat>>, paths: seq<seq<K>>, n: nat, w: K)
    requires Shaped(children, paths) && n < |children| && w !in children[n]
    ensures Shaped(AddChild(children, n, w), paths + [paths[n] + [w]])
  {
    var children', paths' := AddChild(children, n, w), paths + [paths[n] + [w]];
    forall k, v | 0 <= k < |children'| && v in children'[k]
      ensures k < children'[k][v] < |children'| && paths'[children'[k][v]] == paths'[k] + [v]
    {
      if k != n || v != w {
        assert children'[k][v] == children[k][v];
      }
    }
    forall m | 0 <= m < |children'|
      ensures Reach(children', paths'[m]) == Some(m)
    {
      AddChildReach(children, n, w, paths'[m]);
      if m < |children| {
        AddChildKeeps(children, n, w, paths[m]);
      } else {
        assert paths'[m][..|paths'[m]| - 1] == paths[n];
      }
    }
  }
}

=== FILE: wrappers.dfy ===
/** The optional value shared by every module: `None` stands for Python's `None`. */
module Wrappers {
  datatype Option<+T> = None | Some(value: T)
}
